=== FILE: README.md ===
# java-beetle reliability core in Dafny

This project models four pieces of sequential logic of the beetle Java client,
each as an immutable state plus the calls it makes on the next layer down:

- **Requeue at end** (`RequeueAtEnd`, `RequeueScenarios`). A channel decorator turns a
  reject-with-requeue into a delayed redelivery at the tail of the queue. It does this
  through a companion `<queue>_dead_letter` queue with a message TTL. A channel is a
  `ChannelState`: the queues marked dead-letter-enabled plus the delivery tags recorded
  on them. Each operation returns the new state, the delegate calls in order, and the
  caller's result. For `basicConsume` that result is the consumer as registered with the
  delegate, not the consumer tag the caller gets back. `RequeueScenarios` adds a toy broker that settles a delivery from
  those calls. With it, the outcome table of the requeue-at-end integration test is
  stated as lemmas.
- **Failover watcher** (`FailoverManager`). One periodic step of the Redis failover
  manager is a pure function of the current master and the master file's content, or a
  read failure. It returns the new current master, the reconnect it issues (if any), and
  which branch it logged.
- **Deduplication store** (`DedupStore`). This is a contract model of the store's
  observable behaviour, as its tests state it. Keys map to values with an optional
  expiry on an abstract millisecond clock. The model covers claim, put, increase, get
  and delete. It also covers the bounded retry that ends in "request failed" or
  "request timed out", and how the constructor resolves the backend address and
  reports errors.
- **Listener adaptor** (`ListenerInterceptor`). This covers `expires_at` decoding, and
  ack and reject gated on the listener's acknowledge mode. It also covers splitting a
  batch into one `store.handle` call per message, until a call throws.

`JavaText` holds the java.lang behaviour these rely on: wrapping long arithmetic,
`Integer.valueOf`/`Long.parseLong` and decimal printing, `String.split(":")` (which drops
trailing empty pieces), and `String.replace` of one character. `Wrappers` holds
`Option` (a nullable reference) and `Result` (a call that returns or throws).

Two behaviours of `queueDeclare` worth noting:
- When the dead-letter declaration echoes an empty or null queue name, `queueDeclare`
  returns that answer at once. It does not declare the original queue as requested.
- With a negative delay, the caller's arguments are forwarded untouched. The delay
  header is not stripped.

Caller maps are never mutated, because every map in the model is an immutable value.

## Model

| member | source | states |
|---|---|---|
| RequeueAtEnd.DefaultConfig | new-beetle/src/main/java/com/xing/beetle/amqp/RequeueAtEndConnection.java:202-204 | the one-argument constructor configures a negative delay and polarity off |
| RequeueAtEnd.CreateChannelStep | new-beetle/src/main/java/com/xing/beetle/amqp/RequeueAtEndConnection.java:213-218 | a null channel from the delegate fails the call; otherwise the new channel starts with no marked queue and no recorded tag, and channel n is requested when n >= 0, otherwise any channel |
| RequeueAtEnd.EffectiveDelay | new-beetle/src/main/java/com/xing/beetle/amqp/RequeueAtEndConnection.java:177-180 | the delay is the header when the caller's map holds it, else the connection default; a null or non-Long header makes the cast throw |
| RequeueAtEnd.DeadLetterArgs | new-beetle/src/main/java/com/xing/beetle/amqp/RequeueAtEndConnection.java:132-138 | the companion queue's arguments are exactly dead-letter exchange "", routing key = the queue, TTL = the delay |
| RequeueAtEnd.OriginalArgs | new-beetle/src/main/java/com/xing/beetle/amqp/RequeueAtEndConnection.java:140-146 | the original queue keeps every caller key except the delay header; exchange "" and routing key `<queue>_dead_letter` override caller values |
| RequeueAtEnd.QueueDeclare | new-beetle/src/main/java/com/xing/beetle/amqp/RequeueAtEndConnection.java:170-195 | negative delay: one untouched declare, nothing marked; otherwise the companion declare first; an empty or null echo stops there and is returned; else the rewired original follows, and the queue is marked iff polarity is on |
| RequeueAtEnd.DeadLetterCheck | new-beetle/src/main/java/com/xing/beetle/amqp/RequeueAtEndConnection.java:148-152 | a tag is recorded exactly when its queue is marked; marks are untouched |
| RequeueAtEnd.BasicConsume | new-beetle/src/main/java/com/xing/beetle/amqp/RequeueAtEndConnection.java:39-89 | the consume is forwarded with the caller's parameters; only a non-auto-ack consumer is wrapped |
| RequeueAtEnd.HandleDelivery | new-beetle/src/main/java/com/xing/beetle/amqp/RequeueAtEndConnection.java:69-75 | every delivery reaches the callback; a wrapped consumer on a marked queue records its tag first |
| RequeueAtEnd.BasicGet | new-beetle/src/main/java/com/xing/beetle/amqp/RequeueAtEndConnection.java:91-98 | the response is returned unchanged; the tag is recorded only for a non-null, non-auto-ack get on a marked queue |
| RequeueAtEnd.DeadLettered | new-beetle/src/main/java/com/xing/beetle/amqp/RequeueAtEndConnection.java:154-162 | reports whether the exact tag was recorded; multiple removes every tag up to and including it and keeps larger ones; otherwise only that tag goes |
| RequeueAtEnd.DeadLetteredAsWritten | new-beetle/src/main/java/com/xing/beetle/amqp/RequeueAtEndConnection.java:154-162 | the range cleared as written is the tags below the wrapped long `tag + 1` |
| RequeueAtEnd.AsWrittenAgreesBelowMax | new-beetle/src/main/java/com/xing/beetle/amqp/RequeueAtEndConnection.java:157 | for every long tag below Long.MAX_VALUE the written range equals the intended one |
| RequeueAtEnd.AsWrittenKeepsMaxTag | new-beetle/src/main/java/com/xing/beetle/amqp/RequeueAtEndConnection.java:157 | at Long.MAX_VALUE a ranged nack as written clears nothing, where the intended range clears the tag |
| RequeueAtEnd.BasicNack | new-beetle/src/main/java/com/xing/beetle/amqp/RequeueAtEndConnection.java:100-114 | exactly one delegate call: recorded+requeue is a nack without requeue, recorded without requeue is an ack, both with the same `multiple`; unrecorded is forwarded unchanged |
| RequeueAtEnd.BasicReject | new-beetle/src/main/java/com/xing/beetle/amqp/RequeueAtEndConnection.java:116-130 | the same table for a single tag: reject(false), ack(false), or the reject unchanged; only that tag leaves the set |
| RequeueAtEnd.BasicAck | new-beetle/src/main/java/com/xing/beetle/amqp/RequeueAtEndConnection.java:25 | ack is not intercepted: forwarded as is, and recorded tags are not pruned |
| RequeueAtEnd.NackNeverDiscardsARequeue | new-beetle/src/main/java/com/xing/beetle/amqp/RequeueAtEndConnection.java:101-114 | for the delivery named by `deliveryTag`: when recorded it is never nacked with requeue, and a requested requeue of it is never turned into an ack |
| RequeueAtEnd.RangedNackFollowsTopTag | new-beetle/src/main/java/com/xing/beetle/amqp/RequeueAtEndConnection.java:101-114 | a multiple nack is decided by the top tag alone: a recorded lower delivery is forgotten yet requeued at the head when the top tag is unrecorded, and an unrecorded lower delivery is nacked without requeue when the top tag is recorded |
| RequeueAtEnd.MarksOnlyGrow | new-beetle/src/main/java/com/xing/beetle/amqp/RequeueAtEndConnection.java:190-192 | over any sequence of channel operations no marked queue is ever unmarked |
| RequeueAtEnd.NoInvertNoRecording | new-beetle/src/main/java/com/xing/beetle/amqp/RequeueAtEndConnection.java:101-129 | with polarity off, a fresh channel never marks a queue or records a tag, and the nacks and rejects reaching the broker are exactly the caller's, in order, with the caller's `multiple` and requeue flags |
| RequeueAtEnd.TagsComeFromObservations | new-beetle/src/main/java/com/xing/beetle/amqp/RequeueAtEndConnection.java:148-162 | every recorded tag was present at the start or delivered to a wrapped consumer or a non-auto-ack get |
| RequeueScenarios.RejectRegimes | new-beetle/src/main/java/com/xing/beetle/amqp/RequeueAtEndConnection.java:91-195 | declare, get, reject on a fresh channel. Delay off: ordinary reject semantics. Delay on, polarity off: requeue is immediate, no-requeue returns at the tail. Delay on, polarity on: requeue returns at the tail, no-requeue drops |
| RequeueScenarios.IntegrationTestTable | new-beetle/src/test/java/com/xing/beetle/RequeueAtEndConnectionIT.java:25-33 | the seven (delay, polarity, requeue) rows of the integration test end as that test observes them |
| JavaText.WrapLong | spring-integration/src/main/java/com/xing/beetle/spring/BeetleListenerInterceptor.java:62 | the result is a long congruent to the input modulo 2^64 |
| JavaText.ParseFormatRoundTrip | core/src/main/java/com/xing/beetle/RedisFailoverManager.java:38 | parsing the decimal rendering of any in-range integer gives it back |
| JavaText.RemoveBothIsStrip | core/src/main/java/com/xing/beetle/RedisFailoverManager.java:60 | replacing LF and then CR by "" equals one pass that keeps exactly the other characters, in order |
| JavaText.JoinSplitAll | core/src/main/java/com/xing/beetle/RedisFailoverManager.java:34 | splitting on a character and joining again gives back the string |
| JavaText.HostPortSplit | core/src/main/java/com/xing/beetle/RedisFailoverManager.java:34 | `host:port` with no ':' in either half and a non-empty port splits into exactly those two halves |
| FailoverManager.InitialMaster | core/src/main/java/com/xing/beetle/RedisFailoverManager.java:21-25 | the initial master is the hostname, ':' and the port in decimal; when the hostname holds no ':' it splits back into exactly those two parts |
| FailoverManager.Sanitize | core/src/main/java/com/xing/beetle/RedisFailoverManager.java:58-64 | null stays null; otherwise every LF and CR is removed and all other characters are kept in order |
| FailoverManager.HasMasterFile | core/src/main/java/com/xing/beetle/RedisFailoverManager.java:74-76 | holds iff the path is non-null and non-empty |
| FailoverManager.Run | core/src/main/java/com/xing/beetle/RedisFailoverManager.java:26-46 | a read error or unchanged content changes nothing; otherwise the master becomes the content before validation; a reconnect is issued iff the content has two parts and the port parses, and targets those |
| FailoverManager.RunIsIdempotent | core/src/main/java/com/xing/beetle/RedisFailoverManager.java:29-32 | a second step with the same file content changes nothing and issues no reconnect |
| FailoverManager.SwitchToWrittenMaster | core/src/main/java/com/xing/beetle/RedisFailoverManager.java:29-39 | a changed file holding `host:port`, with an optional LF or CRLF, reconnects to exactly that host and port |
| FailoverManager.InitialMasterIsStable | core/src/main/java/com/xing/beetle/RedisFailoverManager.java:24-30 | a file naming the initial master, with or without a line break, triggers no reconnect |
| FailoverManager.MalformedContentIsAdopted | core/src/main/java/com/xing/beetle/RedisFailoverManager.java:31-37 | malformed changed content becomes the current master without a reconnect, so the next step is quiet |
| FailoverManager.SplitTrailingSeparator | core/src/main/java/com/xing/beetle/RedisFailoverManager.java:34-35 | "a:b:" splits into two parts |
| FailoverManager.SplitEmptyPort | core/src/main/java/com/xing/beetle/RedisFailoverManager.java:34-35 | "host:" and "host::" split into one part |
| FailoverManager.EmptyPortIsInvalid | core/src/main/java/com/xing/beetle/RedisFailoverManager.java:34-36 | "host:\n" is adopted as invalid content and triggers no reconnect |
| DedupStore.Get | redis-dedup-store/src/test/java/com/xing/beetle/redis/RedisDedupStoreTest.java:54-57 | present exactly when the key holds an unexpired record, with its value |
| DedupStore.PutIfAbsent | redis-dedup-store/src/test/java/com/xing/beetle/redis/RedisDedupStoreTest.java:88-98 | an absent key stores and returns the value, which stays stored at every later instant; a present key returns its value and the store is unchanged; other keys read as before, now and later |
| DedupStore.PutIfAbsentTtl | redis-dedup-store/src/test/java/com/xing/beetle/redis/RedisDedupStoreTest.java:81 | as PutIfAbsent, with the new record expiring ttl seconds from now |
| DedupStore.Put | redis-dedup-store/src/test/java/com/xing/beetle/redis/RedisDedupStoreTest.java:66-69 | after put, get returns the value at every later instant; other keys read as before, now and later |
| DedupStore.Increase | redis-dedup-store/src/test/java/com/xing/beetle/redis/RedisDedupStoreTest.java:52-54 | an absent key counts from 1 and its counter never expires; a live counter below Long.MAX_VALUE succeeds with its value plus one, written back as text and keeping its expiry; at Long.MAX_VALUE it fails with an overflow; a non-integer value fails |
| DedupStore.Delete | redis-dedup-store/src/test/java/com/xing/beetle/redis/RedisDedupStoreTest.java:70-72 | every listed key reads absent afterwards, now and later; every other key reads as before at every instant |
| DedupStore.FirstClaimWins | redis-dedup-store/src/test/java/com/xing/beetle/redis/RedisDedupStoreTest.java:93-98 | a second claim with another value, however much later, returns the first value, which stays stored |
| DedupStore.CounterCountsFromOne | redis-dedup-store/src/test/java/com/xing/beetle/redis/RedisDedupStoreTest.java:113 | n increases of a fresh key return 1..n in order, however much time passes between them, and leave "n" stored without expiry |
| DedupStore.TtlExpiry | redis-dedup-store/src/test/java/com/xing/beetle/redis/RedisDedupStoreTest.java:81-84 | a TTL record is present immediately, and present after ms milliseconds iff ms < ttl*1000 |
| DedupStore.BasicOperations | redis-dedup-store/src/test/java/com/xing/beetle/redis/RedisDedupStoreTest.java:46-58 | claim "0" returns "0", increase returns 1, get returns "1", and after delete get is absent |
| DedupStore.RequestFrom | redis-dedup-store/src/test/java/com/xing/beetle/redis/RedisDedupStoreTest.java:116-127 | every attempt before the last failed, and the deadline had not passed before each retry; the end is the first success, "failed" when the last retry fails, or "timed out" once the deadline has passed |
| DedupStore.DeadBackendExhaustsRetries | redis-dedup-store/src/test/java/com/xing/beetle/redis/RedisDedupStoreTest.java:102-129 | 3 retries at 1 s under a 20 s deadline fail with "request failed" after 4 attempts and more than 3 s |
| DedupStore.DeadBackendTimesOut | redis-dedup-store/src/test/java/com/xing/beetle/redis/RedisDedupStoreTest.java:131-157 | 6 retries at 1 s under a 3 s deadline fail with "request timed out" after 3 attempts, between 3 and 3.5 s |
| DedupStore.ParseAddress | redis-dedup-store/src/test/java/com/xing/beetle/redis/RedisDedupStoreTest.java:31-37 | an address parses exactly when it splits on ':' into two parts whose second parses as an int; the host is the first part and the port that int |
| DedupStore.ParseAddressRoundTrip | redis-dedup-store/src/test/java/com/xing/beetle/redis/RedisDedupStoreTest.java:31-37 | `host:port` as the tests build it parses back to that host and port |
| DedupStore.Construct | redis-dedup-store/src/test/java/com/xing/beetle/redis/RedisDedupStoreTest.java:179-203 | a literal or file-given address that parses and is reachable succeeds with that address; one that does not parse, or a file with no line for the system, is invalid; a parsed address with nothing behind it is reported with the address text |
| DedupStore.AddressFileLines | redis-dedup-store/src/test/java/com/xing/beetle/redis/RedisDedupStoreTest.java:159-175 | for system "system", a file line resolves whether it is `host:port` or `system/host:port` |
| DedupStore.NoColonIsInvalid | redis-dedup-store/src/test/java/com/xing/beetle/redis/RedisDedupStoreTest.java:179-189 | a setting that names no file and has no ':' fails as an invalid address |
| DedupStore.UnreachableIsReported | redis-dedup-store/src/test/java/com/xing/beetle/redis/RedisDedupStoreTest.java:191-203 | a well-formed address with nothing behind it fails with that address |
| DedupStore.NonExistingFileMessage | redis-dedup-store/src/test/java/com/xing/beetle/redis/RedisDedupStoreTest.java:179-189 | "redisServerConfig.txt" with no such file fails with "Invalid redis address" |
| DedupStore.RedisNotRunning | redis-dedup-store/src/test/java/com/xing/beetle/redis/RedisDedupStoreTest.java:191-199 | "localhost:6399" with no Redis behind it fails construction with a connect error naming that address |
| DedupStore.RedisNotRunningMessage | redis-dedup-store/src/test/java/com/xing/beetle/redis/RedisDedupStoreTest.java:191-203 | "localhost:6399" with no Redis fails with "Cannot connect to redis at given address: localhost:6399" |
| ListenerInterceptor.KeyOf | spring-integration/src/main/java/com/xing/beetle/spring/BeetleListenerInterceptor.java:51-54 | the deduplication key is the message id |
| ListenerInterceptor.ExpiresAt | spring-integration/src/main/java/com/xing/beetle/spring/BeetleListenerInterceptor.java:56-69 | missing means Long.MAX_VALUE; a number gives its long value; a string gives the long it parses to, and a NumberFormat failure naming the text otherwise; any other type is rejected |
| ListenerInterceptor.ExpiresAtEncodingsAgree | spring-integration/src/main/java/com/xing/beetle/spring/BeetleListenerInterceptor.java:57-65 | a long expiry sent as a number or as its decimal string reads the same |
| ListenerInterceptor.Acknowledge | spring-integration/src/main/java/com/xing/beetle/spring/BeetleListenerInterceptor.java:40-49 | exactly basicAck(tag, false) when acking is needed, otherwise no call |
| ListenerInterceptor.Requeue | spring-integration/src/main/java/com/xing/beetle/spring/BeetleListenerInterceptor.java:71-80 | exactly basicReject(tag, rejectAndRequeue) when acking is needed, otherwise no call; never an ack |
| ListenerInterceptor.Adapter | spring-integration/src/main/java/com/xing/beetle/spring/BeetleListenerInterceptor.java:105-109 | acking is needed iff the consumer queue's recorded mode is MANUAL; unknown or null queues default to AUTO |
| ListenerInterceptor.Invoke | spring-integration/src/main/java/com/xing/beetle/spring/BeetleListenerInterceptor.java:111-128 | handle calls follow the messages in order, each with its own adapter and a listener argument that is a one-element list in batch mode and the message itself otherwise; a call that throws ends the iteration after it, and otherwise every message gets one call |
| ListenerInterceptor.PreparedArgumentsCoverDelivery | spring-integration/src/main/java/com/xing/beetle/spring/BeetleListenerInterceptor.java:121-126 | the listener arguments prepared for the handle calls, concatenated, are the delivery up to the last call made: all of it, in order and each message once, when no call throws |
| ListenerInterceptor.ManualRequeueGoesToTail | spring-integration/src/main/java/com/xing/beetle/spring/BeetleListenerInterceptor.java:71-80 | under MANUAL mode, a requeue of a delivery the requeue-at-end channel recorded reaches the broker as reject without requeue |

## Left out

- Thread safety. The delivery-tag set is a `ConcurrentSkipListSet` shared by the delivery thread and the acking thread; it is modelled as a plain set. Concurrent `putIfAbsent` and `increase` on the store are not modelled either.
- `BeetleHeader.REQUEUE_AT_END_DELAY`: BeetleHeader.java is not part of this model. The header key is a constant standing for it, and the proofs only use that it differs from the three `x-` keys.
- RequeueAtEnd.EffectiveDelay: a header of any class other than `Long` makes the `(long)` cast throw. The model keeps only that class's name and does not model Java's unboxing rules further.
- IOException from the delegate channel, and the consumer callbacks other than `handleDelivery`. Those callbacks are forwarded unchanged by the wrapper and carry no logic.
- The memory-mapped read of the master file, its UTF-8 decoding, and all logging. The file content is an input string, or a read failure.
- FailoverManager.Run: a reconnect that throws inside the deduplication store is caught by the same handler. The store's reconnect is not part of this model, so the step only records the reconnect it issues.
- JavaText.ParseDecimal: `Integer.valueOf` and `Long.parseLong` also accept non-ASCII Unicode digits. The model accepts ASCII digits only.
- The deduplication store implementation (Redis client, network, real sleeps) is not part of this model. Its contract is taken from the tests. Some choices are the model's own:
  - `increase` follows Redis counter rules: only the canonical decimal text of a long counts, and overflow fails.
  - The first matching line of a multi-line address file wins.
  - A setting names a file when such a file exists; otherwise it is a literal `host:port`.
  - The retry loop is attempt, then sleep one interval, then check the deadline. With that order the test's time bounds come out.
  - DedupStore.DeadBackendExhaustsRetries and DedupStore.DeadBackendTimesOut assume a failed attempt against a dead backend costs more than 0 and at most 100 ms. That bound is the model's own choice; it keeps the timeout within the 3 to 3.5 s window the test checks.
- DedupStore.PutIfAbsentTtl: requires a positive TTL, because Redis rejects a TTL of zero or less. That error path is not modelled.
- ListenerInterceptor.ExpiresAt: a `Number` header is modelled by its integral value. `longValue()` of floating-point and `BigDecimal` numbers (truncation, saturation) is not modelled.
- `onApplicationStarted` (the registry scan), and the AOP argument mutation in `invoke`. The acknowledge-mode map is an input. A `null` map before the start event is not modelled.
- The return value of `invoke`, which is always null. The model returns the `store.handle` calls instead.
- `store.handle`, the deduplicating message-handling protocol, is not part of this model. Whether a handle call throws is an input to `invoke`, and whether it runs the listener is not modelled.
- `BeetleConnectionFactory`, `ClientBuilder`, the examples and the live-broker acceptance test: this is configuration and composition over classes outside this model.
- RequeueAtEnd.DeadLettered: departs from the code at tag Long.MAX_VALUE; see Findings.
- RequeueAtEnd.BasicNack: prunes the recorded tags with the corrected `DeadLettered`, so a multiple nack of tag Long.MAX_VALUE clears that tag, where the code as written clears nothing; see Findings.

## Findings

| source | as written | input that shows it | evidently intended | confidence | as-written member | corrected member |
|---|---|---|---|---|---|---|
| new-beetle/src/main/java/com/xing/beetle/amqp/RequeueAtEndConnection.java:157 | `headSet(deliveryTag + 1).clear()` uses wrapping long addition | `basicNack(Long.MAX_VALUE, true, …)` with that tag recorded: `+ 1` wraps to Long.MIN_VALUE, nothing is cleared, and the tag stays recorded | remove every recorded tag up to and including `deliveryTag` | low: not executed; the broker would have to hand out tag 2^63-1 | RequeueAtEnd.DeadLetteredAsWritten, RequeueAtEnd.AsWrittenKeepsMaxTag | RequeueAtEnd.DeadLettered |

=== FILE: dedup_store.dfy ===
/**
 * The deduplication key-value store, as a contract: a map from key to
 * value with optional expiry on an abstract millisecond clock, the bounded
 * retry that classifies a dead backend as "request failed" or "request
 * timed out", and the construction-time resolution of the backend address.
 * The Redis client, the network and real sleeping are not modelled; a
 * backend is a predicate telling which attempts succeed.
 */
module DedupStore {
  import opened Wrappers
  import opened JavaText
  import FailoverManager

  type Address = FailoverManager.RedisConfiguration

  /** A stored value; `expiresAt` is an instant on the store's clock. Counters and values share the slot. */
  datatype Entry = Entry(value: string, expiresAt: Option<int>)

  datatype Store = Store(entries: map<string, Entry>, now: int)

  datatype StoreError = NotAnInteger | IncrementOverflow

  predicate Live(e: Entry, now: int) {
    e.expiresAt.None? || now < e.expiresAt.value
  }

  /** `key` holds a record that has not expired. */
  predicate Holds(s: Store, key: string) {
    key in s.entries && Live(s.entries[key], s.now)
  }

  /** `get`: the live value of `key`, if any. */
  function Get(s: Store, key: string): (r: Option<string>)
    ensures r.Some? <==> Holds(s, key)
    ensures r.Some? ==> r.value == s.entries[key].value
  {
    if Holds(s, key) then Some(s.entries[key].value) else None
  }

  /** The clock moves forward by `ms` milliseconds. */
  function Advance(s: Store, ms: nat): (r: Store)
    ensures r.entries == s.entries && r.now == s.now + ms
  {
    s.(now := s.now + ms)
  }

  /** Two stores agree on every key but `key`, now and at every later instant. */
  ghost predicate SameElsewhere(s: Store, s': Store, key: string) {
    s'.now == s.now && forall ms: nat, k | k != key :: Get(Advance(s', ms), k) == Get(Advance(s, ms), k)
  }

  /** `putIfAbsent`: stores `value` unless a live record exists; returns the value now authoritative. */
  function PutIfAbsent(s: Store, key: string, value: string): (r: (Store, string))
    ensures !Holds(s, key) ==> r.1 == value && forall ms: nat :: Get(Advance(r.0, ms), key) == Some(value)
    ensures Holds(s, key) ==> r.1 == s.entries[key].value && r.0 == s
    ensures SameElsewhere(s, r.0, key)
  {
    if Holds(s, key) then (s, s.entries[key].value)
    else (s.(entries := s.entries[key := Entry(value, None)]), value)
  }

  /** `putIfAbsentTtl`: as `putIfAbsent`, the new record expiring `ttlSeconds` after now. */
  function PutIfAbsentTtl(s: Store, key: string, value: string, ttlSeconds: int): (r: (Store, string))
    requires ttlSeconds > 0
    ensures !Holds(s, key) ==> r.1 == value && key in r.0.entries && r.0.entries[key] == Entry(value, Some(s.now + ttlSeconds * 1000))
    ensures Holds(s, key) ==> r.1 == s.entries[key].value && r.0 == s
    ensures SameElsewhere(s, r.0, key)
  {
    if Holds(s, key) then (s, s.entries[key].value)
    else (s.(entries := s.entries[key := Entry(value, Some(s.now + ttlSeconds * 1000))]), value)
  }

  /** `put`: overwrites, without expiry. */
  function Put(s: Store, key: string, value: string): (r: Store)
    ensures forall ms: nat :: Get(Advance(r, ms), key) == Some(value)
    ensures SameElsewhere(s, r, key)
  {
    s.(entries := s.entries[key := Entry(value, None)])
  }

  /** A value the counter can read: the canonical decimal spelling of a long. */
  function CounterValue(value: string): (r: Option<int>)
    ensures r.Some? ==> IsLong(r.value) && FormatDecimal(r.value) == value
  {
    var parsed := ParseDecimal(value, LongMin, LongMax);
    if parsed.Some? && FormatDecimal(parsed.value) == value then parsed else None
  }

  /**
   * `increase`: adds one to the counter in the value slot of `key`, an absent
   * or expired key counting as 0; a non-numeric value or an overflow fails.
   */
  function Increase(s: Store, key: string): (r: Result<(Store, int), StoreError>)
    ensures !Holds(s, key) ==> r.Success? && r.value.1 == 1
    ensures r.Success? ==> Get(r.value.0, key) == Some(FormatDecimal(r.value.1))
    ensures r.Success? && Holds(s, key) ==> CounterValue(s.entries[key].value) == Some(r.value.1 - 1)
    ensures Holds(s, key) && CounterValue(s.entries[key].value).None? ==> r == Failure(NotAnInteger)
    ensures Holds(s, key) && CounterValue(s.entries[key].value).Some? ==>
      var n := CounterValue(s.entries[key].value).value;
      if n < LongMax then r.Success? && r.value.1 == n + 1 else r == Failure(IncrementOverflow)
    ensures r.Success? ==> SameElsewhere(s, r.value.0, key)
    // a new counter never expires; an existing one keeps its expiry
    ensures r.Success? ==>
      && key in r.value.0.entries
      && r.value.0.entries[key] == Entry(FormatDecimal(r.value.1), if Holds(s, key) then s.entries[key].expiresAt else None)
  {
    if !Holds(s, key) then
      Success((s.(entries := s.entries[key := Entry("1", None)]), 1))
    else
      var e := s.entries[key];
      match CounterValue(e.value)
      case None => Failure(NotAnInteger)
      case Some(n) =>
        if n == LongMax then Failure(IncrementOverflow)
        else Success((s.(entries := s.entries[key := e.(value := FormatDecimal(n + 1))]), n + 1))
  }

  /** `delete(keys...)`: every listed key is gone, the others untouched. */
  function Delete(s: Store, keys: seq<string>): (r: Store)
    ensures forall ms: nat, i | 0 <= i < |keys| :: Get(Advance(r, ms), keys[i]).None?
    ensures forall ms: nat, k | k !in keys :: Get(Advance(r, ms), k) == Get(Advance(s, ms), k)
    ensures r.now == s.now
  {
    s.(entries := map k | k in s.entries && k !in keys :: s.entries[k])
  }

  /** The first claim of an absent key wins: a later claim with another value, however much later, gets the first one back. */
  lemma FirstClaimWins(s: Store, key: string, v: string, v2: string, ms: nat)
    requires !Holds(s, key)
    ensures var (s1, r1) := PutIfAbsent(s, key, v);
      var (s2, r2) := PutIfAbsent(Advance(s1, ms), key, v2);
      r1 == v && r2 == v && Get(s2, key) == Some(v)
  {
  }

  /** One increase per gap, the clock advancing by that gap before each: the store after them and the values returned. */
  function IncreaseTimes(s: Store, key: string, gaps: seq<nat>): Result<(Store, seq<int>), StoreError>
    decreases |gaps|
  {
    if |gaps| == 0 then Success((s, []))
    else
      var (s1, done) :- IncreaseTimes(s, key, gaps[..|gaps| - 1]);
      var (s2, next) :- Increase(Advance(s1, gaps[|gaps| - 1]), key);
      Success((s2, done + [next]))
  }

  /**
   * `n` increases of a fresh key return 1, 2, ..., n in order, however much
   * time passes between them, and leave "n" stored without expiry.
   */
  lemma {:induction false} CounterCountsFromOne(s: Store, key: string, gaps: seq<nat>)
    requires !Holds(s, key) && |gaps| < LongMax
    ensures IncreaseTimes(s, key, gaps).Success?
    ensures |IncreaseTimes(s, key, gaps).value.1| == |gaps|
    ensures forall i | 0 <= i < |gaps| :: IncreaseTimes(s, key, gaps).value.1[i] == i + 1
    ensures |gaps| > 0 ==>
      && key in IncreaseTimes(s, key, gaps).value.0.entries
      && IncreaseTimes(s, key, gaps).value.0.entries[key] == Entry(FormatDecimal(|gaps|), None)
    decreases |gaps|
  {
    var n := |gaps|;
    if n > 0 {
      var prefix := gaps[..n - 1];
      CounterCountsFromOne(s, key, prefix);
      var (s1, done) := IncreaseTimes(s, key, prefix).value;
      var s1' := Advance(s1, gaps[n - 1]);
      if n > 1 {
        ParseFormatRoundTrip(n - 1, LongMin, LongMax);
        assert Holds(s1', key);
        assert CounterValue(s1'.entries[key].value) == Some(n - 1);
      } else {
        assert s1 == s;
        assert !Holds(s1', key);
      }
    }
  }

  /** A record stored with a TTL of t seconds is present until t seconds have passed, and absent from then on. */
  lemma TtlExpiry(s: Store, key: string, value: string, ttlSeconds: int, ms: nat)
    requires ttlSeconds > 0 && !Holds(s, key)
    ensures Get(PutIfAbsentTtl(s, key, value, ttlSeconds).0, key) == Some(value)
    ensures Get(Advance(PutIfAbsentTtl(s, key, value, ttlSeconds).0, ms), key).Some? <==> ms < ttlSeconds * 1000
  {
  }

  /** The store-level test: claim "0", count it to 1, read "1", delete, read nothing. */
  lemma BasicOperations(s: Store)
    requires !Holds(s, "key")
    ensures var (s1, claimed) := PutIfAbsent(s, "key", "0");
      && claimed == "0"
      && Increase(s1, "key").Success?
      && Increase(s1, "key").value.1 == 1
      && Get(Increase(s1, "key").value.0, "key") == Some("1")
      && Get(Delete(Increase(s1, "key").value.0, ["key"]), "key").None?
  {
    var s1 := PutIfAbsent(s, "key", "0").0;
    assert ParseDecimal("0", LongMin, LongMax) == Some(0);
    assert FormatDecimal(0) == "0";
  }

  // ---------------------------------------------------------------------
  // Bounded retry

  /** Maximum retries after the first attempt, pause between attempts, overall deadline; all in milliseconds. */
  datatype RetryPolicy = RetryPolicy(retries: nat, intervalMs: nat, timeoutMs: nat)

  /** The properties are given in seconds. */
  function PolicyFromSeconds(retries: nat, intervalSeconds: nat, timeoutSeconds: nat): RetryPolicy {
    RetryPolicy(retries, intervalSeconds * 1000, timeoutSeconds * 1000)
  }

  datatype RequestFailure = RequestFailed | RequestTimedOut

  function FailureMessage(f: RequestFailure): string {
    match f
    case RequestFailed => "Deduplication store request failed"
    case RequestTimedOut => "Deduplication store request timed out"
  }

  /** How a request ended: the attempt that succeeded or the failure, how many attempts ran, and the time spent. */
  datatype Attempted = Attempted(outcome: Result<nat, RequestFailure>, attempts: nat, elapsedMs: nat)

  /** Attempts `i` up to but excluding `last` all failed, each with the deadline not yet reached after its pause. */
  ghost predicate FailedInTime(p: RetryPolicy, costMs: nat, up: nat -> bool, i: nat, last: nat) {
    forall j | i <= j < last :: !up(j) && (j + 1) * (costMs + p.intervalMs) < p.timeoutMs
  }

  /**
   * The request loop from attempt `i` on. Each attempt takes `costMs`; after a
   * failed attempt with retries left the loop sleeps one interval and gives up
   * with a timeout if the deadline has passed by then.
   */
  function RequestFrom(p: RetryPolicy, costMs: nat, up: nat -> bool, i: nat): (r: Attempted)
    requires i <= p.retries
    ensures r.attempts >= 1 && i + r.attempts - 1 <= p.retries
    ensures FailedInTime(p, costMs, up, i, i + r.attempts - 1)
    ensures r.outcome.Success? <==> up(i + r.attempts - 1)
    ensures var last, w := i + r.attempts - 1, costMs + p.intervalMs;
      && (r.outcome.Success? ==> r.outcome.value == last && r.elapsedMs == last * w + costMs)
      && (r.outcome == Failure(RequestFailed) ==> last == p.retries && r.elapsedMs == last * w + costMs)
      && (r.outcome == Failure(RequestTimedOut) ==> last < p.retries && r.elapsedMs == (last + 1) * w && r.elapsedMs >= p.timeoutMs)
    decreases p.retries - i
  {
    var w := costMs + p.intervalMs;
    if up(i) then Attempted(Success(i), 1, i * w + costMs)
    else if i == p.retries then Attempted(Failure(RequestFailed), 1, i * w + costMs)
    else if (i + 1) * w >= p.timeoutMs then Attempted(Failure(RequestTimedOut), 1, (i + 1) * w)
    else
      var rest := RequestFrom(p, costMs, up, i + 1);
      FailedInTimeExtend(p, costMs, up, i, i + rest.attempts);
      Attempted(rest.outcome, rest.attempts + 1, rest.elapsedMs)
  }

  /** One more failed attempt in time in front of a run of them. */
  lemma FailedInTimeExtend(p: RetryPolicy, costMs: nat, up: nat -> bool, i: nat, last: nat)
    requires !up(i) && (i + 1) * (costMs + p.intervalMs) < p.timeoutMs
    requires FailedInTime(p, costMs, up, i + 1, last)
    ensures FailedInTime(p, costMs, up, i, last)
  {
  }

  function Request(p: RetryPolicy, costMs: nat, up: nat -> bool): Attempted {
    RequestFrom(p, costMs, up, 0)
  }

  /** Against a dead backend, 3 retries at 1 s under a 20 s deadline run out of attempts after more than 3 s. */
  lemma DeadBackendExhaustsRetries(costMs: nat)
    requires 0 < costMs <= 100
    ensures var r := Request(PolicyFromSeconds(3, 1, 20), costMs, _ => false);
      && r.outcome == Failure(RequestFailed)
      && FailureMessage(r.outcome.error) == "Deduplication store request failed"
      && r.attempts == 4
      && r.elapsedMs > 3000
  {
  }

  /** Against a dead backend, 6 retries at 1 s under a 3 s deadline time out after about 3 s, with retries left. */
  lemma DeadBackendTimesOut(costMs: nat)
    requires 0 < costMs <= 100
    ensures var r := Request(PolicyFromSeconds(6, 1, 3), costMs, _ => false);
      && r.outcome == Failure(RequestTimedOut)
      && FailureMessage(r.outcome.error) == "Deduplication store request timed out"
      && r.attempts == 3
      && 3000 < r.elapsedMs < 3500
  {
  }

  // ---------------------------------------------------------------------
  // Construction

  datatype ConstructError = InvalidAddress | CannotConnect(address: string)

  function ConstructErrorMessage(e: ConstructError): string {
    match e
    case InvalidAddress => "Invalid redis address"
    case CannotConnect(a) => "Cannot connect to redis at given address: " + a
  }

  /** A `host:port` string, split as the failover watcher splits it. */
  function ParseAddress(a: string): (r: Option<Address>)
    ensures r.Some? <==> |JavaSplit(a, ':')| == 2 && ParseDecimal(JavaSplit(a, ':')[1], IntMin, IntMax).Some?
    ensures r.Some? ==> r.value.hostname == JavaSplit(a, ':')[0]
    ensures r.Some? ==> Some(r.value.port) == ParseDecimal(JavaSplit(a, ':')[1], IntMin, IntMax)
    ensures r.Some? ==> IntMin <= r.value.port <= IntMax
  {
    var parts := JavaSplit(a, ':');
    if |parts| != 2 then None
    else
      match ParseDecimal(parts[1], IntMin, IntMax)
      case None => None
      case Some(port) => Some(FailoverManager.RedisConfiguration(parts[0], port))
  }

  /** The address a line of the address file gives for `system`: `name/address` for that name, or a bare address. */
  function LineAddress(line: string, system: string): Option<string> {
    if '/' !in line then Some(line)
    else
      var slash := IndexOf(line, '/');
      if line[..slash] == system then Some(line[slash + 1..]) else None
  }

  function FileAddress(lines: seq<string>, system: string): Option<string> {
    if |lines| == 0 then None
    else if LineAddress(lines[0], system).Some? then LineAddress(lines[0], system)
    else FileAddress(lines[1..], system)
  }

  /** The environment at construction: readable files by path, and the addresses a Redis answers on. */
  datatype Environment = Environment(files: map<string, seq<string>>, reachable: set<Address>)

  /**
   * The constructor's address handling: the server setting names a file (one
   * line is picked for the system name) or is itself `host:port`; an address
   * that does not parse is invalid, one with no Redis behind it is reported
   * with the address.
   */
  function Construct(server: string, system: string, env: Environment): (r: Result<Address, ConstructError>)
    ensures r.Success? ==> r.value in env.reachable
    ensures server !in env.files ==> (r.Success? ==> ParseAddress(server) == Some(r.value))
    ensures server !in env.files && ParseAddress(server).None? ==> r == Failure(InvalidAddress)
    ensures server !in env.files && ParseAddress(server).Some? && ParseAddress(server).value !in env.reachable ==>
      r == Failure(CannotConnect(server))
    ensures server !in env.files && ParseAddress(server).Some? && ParseAddress(server).value in env.reachable ==>
      r == Success(ParseAddress(server).value)
    ensures server in env.files && FileAddress(env.files[server], system).None? ==> r == Failure(InvalidAddress)
    ensures server in env.files && FileAddress(env.files[server], system).Some? ==>
      var line := FileAddress(env.files[server], system).value;
      && (ParseAddress(line).None? ==> r == Failure(InvalidAddress))
      && (ParseAddress(line).Some? && ParseAddress(line).value !in env.reachable ==> r == Failure(CannotConnect(line)))
      && (ParseAddress(line).Some? && ParseAddress(line).value in env.reachable ==> r == Success(ParseAddress(line).value))
  {
    var address := if server in env.files then FileAddress(env.files[server], system) else Some(server);
    if address.None? then Failure(InvalidAddress)
    else
      match ParseAddress(address.value)
      case None => Failure(InvalidAddress)
      case Some(a) => if a in env.reachable then Success(a) else Failure(CannotConnect(address.value))
  }

  /** A `host:port` written the way the failover watcher names a master parses back to that address. */
  lemma ParseAddressRoundTrip(a: Address)
    requires ':' !in a.hostname && IntMin <= a.port <= IntMax
    ensures ParseAddress(FailoverManager.InitialMaster(a)) == Some(a)
  {
    ParseFormatRoundTrip(a.port, IntMin, IntMax);
  }

  /** A file line resolves for system "system" whether it is the bare address or prefixed with "system/". */
  lemma AddressFileLines(address: string)
    requires '/' !in address
    ensures FileAddress([address], "system") == Some(address)
    ensures FileAddress(["system/" + address], "system") == Some(address)
  {
    var line := "system/" + address;
    assert line[6] == '/' && '/' !in line[..6];
    assert line[..6] == "system";
    assert line[7..] == address;
  }

  /** A setting that names no file and holds no ':' is an invalid address. */
  lemma NoColonIsInvalid(server: string, system: string, env: Environment)
    requires server !in env.files && ':' !in server
    ensures Construct(server, system, env) == Failure(InvalidAddress)
  {
  }

  /** A `host:port` setting with no Redis behind it is reported with the setting itself. */
  lemma UnreachableIsReported(host: string, port: string, n: int, system: string, env: Environment)
    requires ':' !in host && ':' !in port && |port| > 0
    requires ParseDecimal(port, IntMin, IntMax) == Some(n)
    requires host + ":" + port !in env.files
    requires FailoverManager.RedisConfiguration(host, n) !in env.reachable
    ensures Construct(host + ":" + port, system, env) == Failure(CannotConnect(host + ":" + port))
  {
    HostPortSplit(host, port);
  }

  /** The constructor test with a path to no file: the setting is no address either. */
  lemma NonExistingFileMessage(env: Environment, path: string)
    requires path == "redisServerConfig.txt" && path !in env.files
    ensures ConstructErrorMessage(Construct(path, "system", env).error) == "Invalid redis address"
  {
    assert ':' !in path;
    NoColonIsInvalid(path, "system", env);
  }

  lemma ParsePort6399(port: string)
    requires port == "6399"
    ensures ':' !in port && ParseDecimal(port, IntMin, IntMax) == Some(6399)
  {
    assert DigitsValue(port[..1]) == 6;
    assert DigitsValue(port[..2]) == 63 by { assert port[..2][..1] == port[..1]; }
    assert DigitsValue(port[..3]) == 639 by { assert port[..3][..2] == port[..2]; }
    assert DigitsValue(port) == 6399 by { assert port[..3] == port[..|port| - 1]; }
  }

  /** The constructor test with no Redis running at the given address: the failure names the address. */
  lemma RedisNotRunning(env: Environment, address: string)
    requires address == "localhost:6399" && address !in env.files
    requires FailoverManager.RedisConfiguration("localhost", 6399) !in env.reachable
    ensures Construct(address, "system", env) == Failure(CannotConnect(address))
  {
    var host, port := "localhost", "6399";
    ParsePort6399(port);
    assert address == host + ":" + port;
    UnreachableIsReported(host, port, 6399, "system", env);
  }

  /** ... and its message is the one the test expects. */
  lemma RedisNotRunningMessage(env: Environment, address: string)
    requires address == "localhost:6399" && address !in env.files
    requires FailoverManager.RedisConfiguration("localhost", 6399) !in env.reachable
    ensures Construct(address, "system", env).Failure?
    ensures ConstructErrorMessage(Construct(address, "system", env).error) ==
      "Cannot connect to redis at given address: localhost:6399"
  {
    RedisNotRunning(env, address);
  }
}

=== FILE: failover_manager.dfy ===
/**
 * The Redis failover watcher: one periodic step compares the master named
 * in the master file with the last known master and, on change, asks the
 * deduplication store to reconnect. The file read is an input (its content,
 * or a read failure); logging is represented by the step's outcome.
 */
module FailoverManager {
  import opened Wrappers
  import opened JavaText

  /** A Redis address as handed to `reconnect`. */
  datatype RedisConfiguration = RedisConfiguration(hostname: string, port: int)

  /** What reading the master file produced. */
  datatype FileRead = Content(text: string) | ReadFailed

  /** Which branch of the step was taken (what it logs). */
  datatype Outcome = Unchanged | Switched | InvalidContent | MalformedPort | ReadError

  /** The watcher after one step: its current master and the reconnect it issued, if any. */
  datatype StepResult = StepResult(currentMaster: string, reconnect: Option<RedisConfiguration>, outcome: Outcome)

  /** The master the watcher starts from: the initial configuration's `hostname:port`. */
  function InitialMaster(initial: RedisConfiguration): (m: string)
    ensures m == initial.hostname + ":" + FormatDecimal(initial.port)
    ensures ':' !in initial.hostname ==>
      JavaSplit(m, ':') == [initial.hostname, FormatDecimal(initial.port)]
  {
    var m := initial.hostname + ":" + FormatDecimal(initial.port);
    if ':' in initial.hostname then m
    else
      HostPortSplit(initial.hostname, FormatDecimal(initial.port));
      m
  }

  /** `sanitizeMasterString`: drops LF, then CR; a null string stays null. */
  function Sanitize(s: Option<string>): (r: Option<string>)
    ensures s.None? <==> r.None?
    ensures r.Some? ==> r.value == StripLineBreaks(s.value)
  {
    match s
    case None => None
    case Some(text) =>
      RemoveBothIsStrip(text);
      Some(RemoveChar(RemoveChar(text, '\n'), '\r'))
  }

  /** `hasMasterFile`: a path is configured and is not empty. */
  function HasMasterFile(masterFile: Option<string>): (b: bool)
    ensures b <==> masterFile.Some? && |masterFile.value| > 0
  {
    masterFile.Some? && masterFile.value != ""
  }

  /**
   * `run`. The current master is replaced by the sanitised file content as
   * soon as it differs, before it is validated; a reconnect is issued only
   * when the content splits into exactly `host` and a port that parses as an
   * int. Every failure is caught: the step always returns.
   */
  function Run(currentMaster: string, read: FileRead): (r: StepResult)
    ensures read.ReadFailed? ==> r == StepResult(currentMaster, None, ReadError)
    ensures read.Content? && StripLineBreaks(read.text) == currentMaster ==>
      r == StepResult(currentMaster, None, Unchanged)
    ensures read.Content? && StripLineBreaks(read.text) != currentMaster ==>
      r.currentMaster == StripLineBreaks(read.text) && r.outcome != Unchanged && r.outcome != ReadError
    ensures r.reconnect.Some? <==> r.outcome == Switched
    ensures r.reconnect.Some? ==>
      && r.currentMaster != currentMaster
      && |JavaSplit(r.currentMaster, ':')| == 2
      && JavaSplit(r.currentMaster, ':')[0] == r.reconnect.value.hostname
      && ParseDecimal(JavaSplit(r.currentMaster, ':')[1], IntMin, IntMax) == Some(r.reconnect.value.port)
    ensures r.outcome == InvalidContent ==> |JavaSplit(r.currentMaster, ':')| != 2
    ensures r.outcome == MalformedPort ==>
      |JavaSplit(r.currentMaster, ':')| == 2 && ParseDecimal(JavaSplit(r.currentMaster, ':')[1], IntMin, IntMax).None?
  {
    match read
    case ReadFailed => StepResult(currentMaster, None, ReadError)
    case Content(text) =>
      var masterInFile := Sanitize(Some(text)).value;
      if currentMaster == masterInFile then StepResult(currentMaster, None, Unchanged)
      else
        var parts := JavaSplit(masterInFile, ':');
        if |parts| != 2 then StepResult(masterInFile, None, InvalidContent)
        else
          match ParseDecimal(parts[1], IntMin, IntMax)
          case None => StepResult(masterInFile, None, MalformedPort)
          case Some(port) => StepResult(masterInFile, Some(RedisConfiguration(parts[0], port)), Switched)
  }

  /** Once a step has taken in the file's content, the same content again changes nothing and reconnects nothing. */
  lemma RunIsIdempotent(currentMaster: string, read: FileRead)
    ensures var r := Run(currentMaster, read);
      Run(r.currentMaster, read) == StepResult(r.currentMaster, None, if read.Content? then Unchanged else ReadError)
  {
  }

  /**
   * A master file holding `host:port` (optionally followed by a line break,
   * LF or CRLF) that differs from the current master switches the watcher to
   * exactly that host and port.
   */
  lemma SwitchToWrittenMaster(currentMaster: string, target: RedisConfiguration, lineEnd: string)
    requires ':' !in target.hostname && '\n' !in target.hostname && '\r' !in target.hostname
    requires IntMin <= target.port <= IntMax
    requires lineEnd in {"", "\n", "\r\n"}
    requires currentMaster != InitialMaster(target)
    ensures Run(currentMaster, Content(InitialMaster(target) + lineEnd)) ==
      StepResult(InitialMaster(target), Some(target), Switched)
  {
    var m := InitialMaster(target);
    StripConcat(m, lineEnd);
    StripWithoutBreaks(m);
    assert StripLineBreaks(lineEnd) == "";
    assert StripLineBreaks(m + lineEnd) == m;
    ParseFormatRoundTrip(target.port, IntMin, IntMax);
  }

  /** A watcher started from a configuration does not reconnect while the file names that same master. */
  lemma InitialMasterIsStable(initial: RedisConfiguration, lineEnd: string)
    requires '\n' !in initial.hostname && '\r' !in initial.hostname
    requires lineEnd in {"", "\n", "\r\n"}
    ensures Run(InitialMaster(initial), Content(InitialMaster(initial) + lineEnd)) ==
      StepResult(InitialMaster(initial), None, Unchanged)
  {
    var m := InitialMaster(initial);
    StripConcat(m, lineEnd);
    StripWithoutBreaks(m);
    assert StripLineBreaks(lineEnd) == "";
  }

  /** Malformed content still becomes the current master, so the same malformed content is not reported twice. */
  lemma MalformedContentIsAdopted(currentMaster: string, text: string)
    requires StripLineBreaks(text) != currentMaster
    requires |JavaSplit(StripLineBreaks(text), ':')| != 2
    ensures Run(currentMaster, Content(text)) == StepResult(StripLineBreaks(text), None, InvalidContent)
    ensures Run(StripLineBreaks(text), Content(text)).outcome == Unchanged
  {
  }

  /** String.split drops trailing empty pieces: "a:b:" has two parts. */
  lemma SplitTrailingSeparator()
    ensures JavaSplit("a:b:", ':') == ["a", "b"]
  {
    SplitAllPrefix("b", ':', "");
    assert "b:" == "b" + [':'] + "";
    SplitAllPrefix("a", ':', "b:");
    assert "a:b:" == "a" + [':'] + "b:";
    var all := SplitAll("a:b:", ':');
    assert all == ["a", "b", ""];
    assert all[..2] == ["a", "b"];
  }

  /** "host:" and "host::" have one part each: the empty ports are trailing pieces. */
  lemma SplitEmptyPort()
    ensures JavaSplit("host:", ':') == ["host"]
    ensures JavaSplit("host::", ':') == ["host"]
  {
    SplitAllPrefix("host", ':', "");
    assert "host:" == "host" + [':'] + "";
    var one := SplitAll("host:", ':');
    assert one == ["host", ""];
    assert one[..1] == ["host"];
    SplitAllPrefix("", ':', "");
    assert ":" == "" + [':'] + "";
    SplitAllPrefix("host", ':', ":");
    assert "host::" == "host" + [':'] + ":";
    var two := SplitAll("host::", ':');
    assert two == ["host", "", ""];
    assert two[..2] == ["host", ""];
    assert two[..2][..1] == ["host"];
  }

  /** Content with a host but an empty port ("host:") is invalid and issues no reconnect. */
  lemma EmptyPortIsInvalid(currentMaster: string)
    requires currentMaster != "host:"
    ensures Run(currentMaster, Content("host:\n")) == StepResult("host:", None, InvalidContent)
  {
    SplitEmptyPort();
    StripConcat("host:", "\n");
    StripWithoutBreaks("host:");
  }
}

=== FILE: java_text.dfy ===
/**
 * The slices of java.lang that the modelled code relies on: 64-bit long
 * arithmetic, decimal parsing and printing of integers (Integer.valueOf,
 * Long.parseLong, string concatenation of an int), String.split with a
 * one-character separator, and String.replace of a single character.
 */
module JavaText {
  import opened Wrappers

  const IntMin: int := -0x8000_0000
  const IntMax: int := 0x7fff_ffff
  const LongMin: int := -0x8000_0000_0000_0000
  const LongMax: int := 0x7fff_ffff_ffff_ffff
  const LongModulus: int := 0x1_0000_0000_0000_0000

  predicate IsLong(n: int) {
    LongMin <= n <= LongMax
  }

  /** The long that Java's wrapping 64-bit arithmetic produces for the mathematical value `n`. */
  function WrapLong(n: int): (r: int)
    ensures IsLong(r)
    ensures (n - r) % LongModulus == 0
  {
    (n - LongMin) % LongModulus + LongMin
  }

  lemma WrapLongOfLong(n: int)
    requires IsLong(n)
    ensures WrapLong(n) == n
  {
  }

  // ---------------------------------------------------------------------
  // Decimal digits

  predicate IsDigit(c: char) {
    '0' <= c <= '9'
  }

  predicate AllDigits(s: string) {
    forall i | 0 <= i < |s| :: IsDigit(s[i])
  }

  function DigitValue(c: char): nat
    requires IsDigit(c)
  {
    (c as int) - ('0' as int)
  }

  function DigitChar(d: nat): (c: char)
    requires d < 10
    ensures IsDigit(c) && DigitValue(c) == d
  {
    ('0' as int + d) as char
  }

  /** The natural number written by a string of ASCII digits, most significant first. */
  function DigitsValue(s: string): nat
    requires AllDigits(s)
  {
    if |s| == 0 then 0 else DigitsValue(s[..|s| - 1]) * 10 + DigitValue(s[|s| - 1])
  }

  /** The shortest decimal spelling of `n`, as Integer.toString and Long.toString print it. */
  function NatToDigits(n: nat): (s: string)
    ensures |s| > 0 && AllDigits(s)
    ensures DigitsValue(s) == n
  {
    if n < 10 then [DigitChar(n)]
    else
      var p := NatToDigits(n / 10);
      var s := p + [DigitChar(n % 10)];
      assert s[..|s| - 1] == p;
      s
  }

  /** Java's decimal rendering of an int or a long (`"" + n`). */
  function FormatDecimal(n: int): (s: string)
    ensures |s| > 0
    ensures n < 0 <==> s[0] == '-'
    ensures ':' !in s && '\n' !in s && '\r' !in s
  {
    if n < 0 then "-" + NatToDigits(-n) else NatToDigits(n)
  }

  /**
   * Integer.parseInt / Long.parseLong for ASCII input, bounded by [lo, hi]:
   * an optional single '+' or '-', then at least one digit, and the value
   * within range; everything else is a NumberFormatException (None).
   */
  function ParseDecimal(s: string, lo: int, hi: int): (r: Option<int>)
    ensures r.Some? ==> lo <= r.value <= hi
    ensures r.Some? ==> |s| > 0
  {
    if |s| == 0 then None
    else
      var signed := s[0] == '-' || s[0] == '+';
      var digits := if signed then s[1..] else s;
      if |digits| == 0 || !AllDigits(digits) then None
      else
        var magnitude: int := DigitsValue(digits);
        var v := if s[0] == '-' then -magnitude else magnitude;
        if lo <= v <= hi then Some(v) else None
  }

  /** Parsing what Java prints gives back the number: the two are inverse on [lo, hi]. */
  lemma ParseFormatRoundTrip(n: int, lo: int, hi: int)
    requires lo <= n <= hi
    ensures ParseDecimal(FormatDecimal(n), lo, hi) == Some(n)
  {
    var s := FormatDecimal(n);
    if n < 0 {
      assert s[1..] == NatToDigits(-n);
    }
  }

  // ---------------------------------------------------------------------
  // String.replace of one character by the empty string

  /** `s.replace(c, "")`: every occurrence of `c` removed, the other characters kept in order. */
  function RemoveChar(s: string, c: char): (r: string)
    ensures c !in r
    ensures |r| <= |s|
    ensures forall x | x != c :: multiset(r)[x] == multiset(s)[x]
    ensures c !in s ==> r == s
  {
    if |s| == 0 then ""
    else
      var rest := RemoveChar(s[1..], c);
      assert s == [s[0]] + s[1..];
      if s[0] == c then rest else [s[0]] + rest
  }

  predicate IsLineBreak(c: char) {
    c == '\n' || c == '\r'
  }

  /** Reference definition: one pass that keeps exactly the characters that are not CR or LF. */
  function StripLineBreaks(s: string): (r: string)
    ensures forall i | 0 <= i < |r| :: !IsLineBreak(r[i])
  {
    if |s| == 0 then ""
    else if IsLineBreak(s[0]) then StripLineBreaks(s[1..])
    else [s[0]] + StripLineBreaks(s[1..])
  }

  /** Removing LF and then CR, one after the other, is the one-pass strip. */
  lemma {:induction false} RemoveBothIsStrip(s: string)
    ensures RemoveChar(RemoveChar(s, '\n'), '\r') == StripLineBreaks(s)
  {
    if |s| > 0 {
      RemoveBothIsStrip(s[1..]);
    }
  }

  lemma {:induction false} StripConcat(a: string, b: string)
    ensures StripLineBreaks(a + b) == StripLineBreaks(a) + StripLineBreaks(b)
  {
    if |a| > 0 {
      assert (a + b)[1..] == a[1..] + b;
      StripConcat(a[1..], b);
    } else {
      assert a + b == b;
    }
  }

  lemma {:induction false} StripWithoutBreaks(s: string)
    requires '\n' !in s && '\r' !in s
    ensures StripLineBreaks(s) == s
  {
    if |s| > 0 {
      assert s == [s[0]] + s[1..];
      StripWithoutBreaks(s[1..]);
    }
  }

  /** `s.indexOf(c)` for a character that occurs: the position of its first occurrence. */
  function IndexOf(s: string, c: char): (i: nat)
    requires c in s
    ensures i < |s| && s[i] == c && c !in s[..i]
  {
    if s[0] == c then 0
    else
      assert s == [s[0]] + s[1..];
      var j := IndexOf(s[1..], c);
      assert s[..j + 1] == [s[0]] + s[1..][..j];
      j + 1
  }

  // ---------------------------------------------------------------------
  // String.split with a one-character, non-regex-special separator

  /** Every piece between occurrences of `sep`, empty pieces included: k separators give k+1 pieces. */
  function SplitAll(s: string, sep: char): (parts: seq<string>)
    ensures |parts| >= 1
    ensures forall i | 0 <= i < |parts| :: sep !in parts[i]
  {
    if |s| == 0 then [""]
    else
      var rest := SplitAll(s[1..], sep);
      if s[0] == sep then [""] + rest
      else [[s[0]] + rest[0]] + rest[1..]
  }

  /** The inverse of SplitAll: the pieces glued together with `sep`. */
  function Join(parts: seq<string>, sep: char): string
    requires |parts| >= 1
  {
    if |parts| == 1 then parts[0] else parts[0] + [sep] + Join(parts[1..], sep)
  }

  lemma {:induction false} JoinSplitAll(s: string, sep: char)
    ensures Join(SplitAll(s, sep), sep) == s
  {
    if |s| > 0 {
      var rest := SplitAll(s[1..], sep);
      JoinSplitAll(s[1..], sep);
      assert s == [s[0]] + s[1..];
      if s[0] == sep {
        assert ([""] + rest)[1..] == rest;
      } else {
        var parts := [[s[0]] + rest[0]] + rest[1..];
        if |rest| > 1 {
          assert parts[1..] == rest[1..];
          assert Join(rest, sep) == rest[0] + [sep] + Join(rest[1..], sep);
        }
      }
    }
  }

  lemma {:induction false} SplitAllPrefix(h: string, sep: char, rest: string)
    requires sep !in h
    ensures SplitAll(h + [sep] + rest, sep) == [h] + SplitAll(rest, sep)
  {
    var s := h + [sep] + rest;
    if |h| == 0 {
      assert s == [sep] + rest;
      assert s[1..] == rest;
    } else {
      assert s[1..] == h[1..] + [sep] + rest;
      SplitAllPrefix(h[1..], sep, rest);
      assert h == [h[0]] + h[1..];
    }
  }

  lemma {:induction false} SplitAllNoSep(s: string, sep: char)
    requires sep !in s
    ensures SplitAll(s, sep) == [s]
  {
    if |s| > 0 {
      SplitAllNoSep(s[1..], sep);
      assert s == [s[0]] + s[1..];
    }
  }

  /** Drops the empty pieces at the end, as String.split with limit 0 does. */
  function DropTrailingEmpty(parts: seq<string>): (r: seq<string>)
    ensures |r| <= |parts| && r == parts[..|r|]
    ensures |r| == 0 || r[|r| - 1] != ""
    ensures forall i | |r| <= i < |parts| :: parts[i] == ""
  {
    if |parts| == 0 then []
    else if parts[|parts| - 1] == "" then DropTrailingEmpty(parts[..|parts| - 1])
    else parts
  }

  /**
   * `s.split(sep)`: an empty input gives the one-element array [""];
   * otherwise all pieces, with the trailing empty ones removed.
   */
  function JavaSplit(s: string, sep: char): (r: seq<string>)
    ensures forall i | 0 <= i < |r| :: sep !in r[i]
    ensures sep !in s ==> r == [s]
  {
    if |s| == 0 then [""]
    else if sep !in s then
      SplitAllNoSep(s, sep);
      DropTrailingEmpty(SplitAll(s, sep))
    else DropTrailingEmpty(SplitAll(s, sep))
  }

  /** `host + ":" + port` splits back into exactly its two halves when neither holds ':' and the port is not empty. */
  lemma HostPortSplit(host: string, port: string)
    requires ':' !in host && ':' !in port && |port| > 0
    ensures JavaSplit(host + ":" + port, ':') == [host, port]
  {
    SplitAllPrefix(host, ':', port);
    SplitAllNoSep(port, ':');
    assert host + ":" + port == host + [':'] + port;
  }
}

=== FILE: listener_interceptor.dfy ===
/**
 * The listener interceptor's message adaptor: decoding the `expires_at`
 * header, gating ack and reject on the listener's acknowledge mode, and
 * handing each message of a delivery to the deduplication store once.
 * Channel calls use the delegate-call type of the requeue-at-end channel,
 * so the two can be composed.
 */
module ListenerInterceptor {
  import opened Wrappers
  import opened JavaText
  import RequeueAtEnd

  type Call = RequeueAtEnd.Call

  /** Spring's acknowledge modes of a listener container. */
  datatype AcknowledgeMode = NoAck | Manual | Auto

  /** A value of the `expires_at` header: any java.lang.Number (its integral value), a String, or another object. */
  datatype HeaderValue = NumberHeader(n: int) | StringHeader(s: string) | OtherHeader(className: string)

  /** The message properties the adaptor reads. */
  datatype Message = Message(messageId: Option<string>, deliveryTag: int, consumerQueue: Option<string>,
                             expiresAtHeader: Option<HeaderValue>)

  /** `SpringMessageAdaptor`: whether to ack at all, and the requeue flag used when rejecting. */
  datatype Adaptor = Adaptor(needToAck: bool, rejectAndRequeue: bool)

  datatype ExpiresAtError = NumberFormat(text: string) | UnexpectedHeader(className: string)

  /** `keyOf`: the deduplication key is the message id. */
  function KeyOf(m: Message): (k: Option<string>)
    ensures k == m.messageId
  {
    m.messageId
  }

  /**
   * `expiresAt`: no header means never (Long.MAX_VALUE); a number gives its
   * long value; a string is parsed as a decimal long; anything else is an
   * IllegalArgumentException.
   */
  function ExpiresAt(m: Message): (r: Result<int, ExpiresAtError>)
    ensures r.Success? ==> IsLong(r.value)
    ensures m.expiresAtHeader.None? ==> r == Success(LongMax)
    ensures m.expiresAtHeader.Some? && m.expiresAtHeader.value.NumberHeader? ==>
      r.Success? && (r.value - m.expiresAtHeader.value.n) % LongModulus == 0
    ensures m.expiresAtHeader.Some? && m.expiresAtHeader.value.StringHeader? ==>
      var text := m.expiresAtHeader.value.s;
      && (ParseDecimal(text, LongMin, LongMax).Some? ==> r == Success(ParseDecimal(text, LongMin, LongMax).value))
      && (ParseDecimal(text, LongMin, LongMax).None? ==> r == Failure(NumberFormat(text)))
    ensures m.expiresAtHeader.Some? && m.expiresAtHeader.value.OtherHeader? ==>
      r == Failure(UnexpectedHeader(m.expiresAtHeader.value.className))
  {
    match m.expiresAtHeader
    case None => Success(LongMax)
    case Some(NumberHeader(n)) => Success(WrapLong(n))
    case Some(StringHeader(s)) =>
      var parsed := ParseDecimal(s, LongMin, LongMax);
      if parsed.Some? then Success(parsed.value) else Failure(NumberFormat(s))
    case Some(OtherHeader(k)) => Failure(UnexpectedHeader(k))
  }

  /** A long expiry time reads the same whether the publisher sent it as a number or as its decimal string. */
  lemma ExpiresAtEncodingsAgree(m: Message, t: int)
    requires IsLong(t)
    ensures ExpiresAt(m.(expiresAtHeader := Some(NumberHeader(t)))) == Success(t)
    ensures ExpiresAt(m.(expiresAtHeader := Some(StringHeader(FormatDecimal(t))))) == Success(t)
  {
    WrapLongOfLong(t);
    ParseFormatRoundTrip(t, LongMin, LongMax);
  }

  /** `acknowledge`: exactly `basicAck(tag, false)` when acking is needed, otherwise no channel call. */
  function Acknowledge(a: Adaptor, m: Message): (calls: seq<Call>)
    ensures a.needToAck ==> calls == [RequeueAtEnd.Ack(m.deliveryTag, false)]
    ensures !a.needToAck ==> calls == []
  {
    if a.needToAck then [RequeueAtEnd.Ack(m.deliveryTag, false)] else []
  }

  /** `requeue`: exactly `basicReject(tag, rejectAndRequeue)` when acking is needed, otherwise nothing; never an ack. */
  function Requeue(a: Adaptor, m: Message): (calls: seq<Call>)
    ensures a.needToAck ==> calls == [RequeueAtEnd.Reject(m.deliveryTag, a.rejectAndRequeue)]
    ensures !a.needToAck ==> calls == []
    ensures forall i | 0 <= i < |calls| :: !calls[i].Ack?
  {
    if a.needToAck then [RequeueAtEnd.Reject(m.deliveryTag, a.rejectAndRequeue)] else []
  }

  /** `adapter`: acks are needed exactly when the consumer queue's listener acknowledges manually; unknown queues count as AUTO. */
  function Adapter(modes: map<string, AcknowledgeMode>, rejectAndRequeue: bool, m: Message): (a: Adaptor)
    ensures a.needToAck <==> m.consumerQueue.Some? && m.consumerQueue.value in modes && modes[m.consumerQueue.value] == Manual
    ensures a.rejectAndRequeue == rejectAndRequeue
  {
    var mode := if m.consumerQueue.Some? && m.consumerQueue.value in modes then modes[m.consumerQueue.value] else Auto;
    Adaptor(mode == Manual, rejectAndRequeue)
  }

  /** The second argument of the intercepted listener method: one message, or a batch. */
  datatype Payload = Single(message: Message) | Batch(messages: seq<Message>)

  /** One `store.handle(message, adapter, listener)` call; `listenerArg` is what the listener is then invoked with. */
  datatype Handle = Handle(message: Message, adaptor: Adaptor, listenerArg: Payload)

  function Messages(data: Payload): seq<Message> {
    match data
    case Single(m) => [m]
    case Batch(ms) => ms
  }

  /** What the listener is invoked with for `m`: a one-element batch in batch mode, otherwise the message itself. */
  function ListenerArg(data: Payload, m: Message): Payload {
    if data.Batch? then Batch([m]) else Single(m)
  }

  /**
   * `invoke`: the messages of the payload are handed to the store in order,
   * each with its own adaptor and listener argument. Whether a `store.handle`
   * call throws is outside this model, so it is an input: `throwsAt` names the
   * first call that throws, which ends the iteration after that call.
   */
  method Invoke(modes: map<string, AcknowledgeMode>, rejectAndRequeue: bool, data: Payload, throwsAt: Option<nat>)
    returns (handled: seq<Handle>, thrown: bool)
    ensures thrown <==> throwsAt.Some? && throwsAt.value < |Messages(data)|
    ensures |handled| == if thrown then throwsAt.value + 1 else |Messages(data)|
    ensures forall i | 0 <= i < |handled| ::
      && handled[i].message == Messages(data)[i]
      && handled[i].adaptor == Adapter(modes, rejectAndRequeue, Messages(data)[i])
      && handled[i].listenerArg == ListenerArg(data, Messages(data)[i])
  {
    var messages := Messages(data);
    handled, thrown := [], false;
    var i := 0;
    while i < |messages|
      invariant 0 <= i <= |messages|
      invariant |handled| == i
      invariant throwsAt.Some? ==> i <= throwsAt.value
      invariant forall j | 0 <= j < i ::
        && handled[j].message == messages[j]
        && handled[j].adaptor == Adapter(modes, rejectAndRequeue, messages[j])
        && handled[j].listenerArg == ListenerArg(data, messages[j])
    {
      var msg := messages[i];
      handled := handled + [Handle(msg, Adapter(modes, rejectAndRequeue, msg), ListenerArg(data, msg))];
      if throwsAt == Some(i) {
        thrown := true;
        return;
      }
      i := i + 1;
    }
  }

  /** The messages the prepared listener arguments carry, concatenated. */
  function ListenerMessages(handled: seq<Handle>): seq<Message> {
    if |handled| == 0 then [] else Messages(handled[0].listenerArg) + ListenerMessages(handled[1..])
  }

  /**
   * The listener arguments prepared for the handle calls, concatenated, are
   * the delivery up to the last call made: the whole delivery, in order, each
   * message once, when no call throws. Whether the listener then runs is up to
   * the store.
   */
  lemma {:induction false} PreparedArgumentsCoverDelivery(handled: seq<Handle>, data: Payload)
    requires |handled| <= |Messages(data)|
    requires forall i | 0 <= i < |handled| :: handled[i].listenerArg == ListenerArg(data, Messages(data)[i])
    ensures ListenerMessages(handled) == Messages(data)[..|handled|]
    decreases |handled|
  {
    if |handled| > 0 {
      var rest := Messages(data)[1..];
      PreparedArgumentsCoverDelivery(handled[1..], Batch(rest));
      assert Messages(data)[..|handled|] == [Messages(data)[0]] + rest[..|handled| - 1];
    }
  }

  /**
   * A message of a manually acknowledged listener whose delivery the
   * requeue-at-end channel recorded: a requeue with rejectAndRequeue reaches
   * the broker as a reject without requeue, so the message takes the
   * dead-letter detour to the tail instead of coming straight back.
   */
  lemma ManualRequeueGoesToTail(modes: map<string, AcknowledgeMode>, m: Message, s: RequeueAtEnd.ChannelState)
    requires m.consumerQueue.Some? && m.consumerQueue.value in modes && modes[m.consumerQueue.value] == Manual
    requires m.deliveryTag in s.tags
    ensures var calls := Requeue(Adapter(modes, true, m), m);
      && |calls| == 1
      && RequeueAtEnd.BasicReject(s, calls[0].tag, calls[0].requeue).calls == [RequeueAtEnd.Reject(m.deliveryTag, false)]
  {
  }
}

=== FILE: requeue_at_end.dfy ===
/**
 * The requeue-at-end connection decorator and its per-channel state machine.
 *
 * A channel is an immutable state (the queues marked dead-letter-enabled and
 * the delivery tags seen on them) plus, for every intercepted operation, the
 * sequence of calls it makes on the delegate channel. The delegate's answers
 * (the name echoed by a queue declaration, the message returned by a get)
 * are parameters.
 */
module RequeueAtEnd {
  import opened Wrappers
  import opened JavaText

  const DeadLetterSuffix: string := "_dead_letter"
  const DeadLetterExchangeKey: string := "x-dead-letter-exchange"
  const DeadLetterRoutingKeyKey: string := "x-dead-letter-routing-key"
  const MessageTtlKey: string := "x-message-ttl"
  /** Stands for the header constant BeetleHeader.REQUEUE_AT_END_DELAY; only its difference from the broker keys matters. */
  const RequeueAtEndDelayHeader: string := "requeue-at-end-delay"

  /** A value of a queue-declare argument map, as far as the decorator can tell them apart. */
  datatype ArgValue =
    | StrArg(s: string)
    | LongArg(n: int)
    | NullArg
    | OtherArg(className: string)

  type Arguments = map<string, ArgValue>

  /** One call on the delegate channel or connection. */
  datatype Call =
    | CreateChannel(number: Option<int>)
    | Declare(queue: string, durable: bool, exclusive: bool, autoDelete: bool, args: Option<Arguments>)
    | Consume(queue: string, autoAck: bool, consumerTag: string, noLocal: bool, exclusive: bool,
              args: Option<Arguments>, wrapped: bool)
    | Get(queue: string, autoAck: bool)
    | Ack(tag: int, multiple: bool)
    | Nack(tag: int, multiple: bool, requeue: bool)
    | Reject(tag: int, requeue: bool)

  /** The connection's configuration: default delay in milliseconds and the polarity flag. */
  datatype Config = Config(delay: int, invert: bool)

  /** Per-channel state: queues marked dead-letter-enabled, and the delivery tags recorded on them. */
  datatype ChannelState = ChannelState(marked: set<string>, tags: set<int>)

  /** The outcome of an intercepted operation: new state, delegate calls in order, and what the caller gets back. */
  datatype Step<R> = Step(state: ChannelState, calls: seq<Call>, result: R)

  /** Why `queueDeclare` throws before reaching the delegate: the `(long)` cast of the header fails. */
  datatype DeclareError = NullDelayHeader | DelayHeaderNotLong(className: string)

  /** A consumer as registered by `basicConsume`: the queue it listens on and whether it is wrapped. */
  datatype Consumer = Consumer(queue: string, wrapped: bool)

  const EmptyChannel := ChannelState({}, {})

  // ---------------------------------------------------------------------
  // Connection

  /** The one-argument constructor: delay -1 (feature off) and polarity off. */
  function DefaultConfig(): (c: Config)
    ensures c.delay < 0 && !c.invert
  {
    Config(-1, false)
  }

  /** Why `createChannel` throws: the delegate had no channel to give (it returned null), which the wrapper's `requireNonNull` rejects. */
  datatype ChannelError = NullChannel

  /**
   * `createChannel(n)`: asks the delegate for channel n (or any channel when
   * n < 0) and wraps the answer in a fresh state; `granted` says whether the
   * delegate returned a channel.
   */
  function CreateChannelStep(n: int, granted: bool): (r: Result<Step<()>, ChannelError>)
    ensures !granted <==> r == Failure(NullChannel)
    ensures r.Success? ==> r.value.state.marked == {} && r.value.state.tags == {}
    ensures r.Success? ==> |r.value.calls| == 1 && r.value.calls[0].CreateChannel?
    ensures r.Success? ==> (r.value.calls[0].number.Some? <==> n >= 0)
    ensures r.Success? && r.value.calls[0].number.Some? ==> r.value.calls[0].number.value == n
  {
    if !granted then Failure(NullChannel)
    else
      Success(Step(EmptyChannel, [CreateChannel(if n >= 0 then Some(n) else None)], ()))
  }

  // ---------------------------------------------------------------------
  // queueDeclare

  /** The delay in force for a declaration: the header if the caller's map holds it, else the connection default. */
  function EffectiveDelay(c: Config, args: Option<Arguments>): (r: Result<int, DeclareError>)
    ensures (args.None? || RequeueAtEndDelayHeader !in args.value) ==> r == Success(c.delay)
    ensures args.Some? && RequeueAtEndDelayHeader in args.value ==>
      match args.value[RequeueAtEndDelayHeader]
      case LongArg(n) => r == Success(n)
      case NullArg => r == Failure(NullDelayHeader)
      case StrArg(_) => r == Failure(DelayHeaderNotLong("java.lang.String"))
      case OtherArg(k) => r == Failure(DelayHeaderNotLong(k))
  {
    if args.None? || RequeueAtEndDelayHeader !in args.value then Success(c.delay)
    else
      match args.value[RequeueAtEndDelayHeader]
      case LongArg(n) => Success(n)
      case NullArg => Failure(NullDelayHeader)
      case StrArg(_) => Failure(DelayHeaderNotLong("java.lang.String"))
      case OtherArg(k) => Failure(DelayHeaderNotLong(k))
  }

  function DeadLetterName(queue: string): string {
    queue + DeadLetterSuffix
  }

  /** Arguments of the companion queue: dead-letter back to `queue` through the default exchange after `ttl` ms. */
  function DeadLetterArgs(queue: string, ttl: int): (m: Arguments)
    ensures m.Keys == {DeadLetterExchangeKey, DeadLetterRoutingKeyKey, MessageTtlKey}
    ensures m[DeadLetterExchangeKey] == StrArg("")
    ensures m[DeadLetterRoutingKeyKey] == StrArg(queue)
    ensures m[MessageTtlKey] == LongArg(ttl)
  {
    map[DeadLetterExchangeKey := StrArg(""), DeadLetterRoutingKeyKey := StrArg(queue), MessageTtlKey := LongArg(ttl)]
  }

  /**
   * Arguments of the original queue: a copy of the caller's (none counts as
   * empty) without the delay header, dead-lettering to the companion queue.
   */
  function OriginalArgs(args: Option<Arguments>, queue: string): (m: Arguments)
    ensures m.Keys == (args.GetOr(map[]).Keys - {RequeueAtEndDelayHeader}) + {DeadLetterExchangeKey, DeadLetterRoutingKeyKey}
    ensures m[DeadLetterExchangeKey] == StrArg("")
    ensures m[DeadLetterRoutingKeyKey] == StrArg(DeadLetterName(queue))
    ensures forall k | k in args.GetOr(map[]) && k !in {RequeueAtEndDelayHeader, DeadLetterExchangeKey, DeadLetterRoutingKeyKey} ::
      m[k] == args.GetOr(map[])[k]
  {
    var copy := args.GetOr(map[]) - {RequeueAtEndDelayHeader};
    copy[DeadLetterExchangeKey := StrArg("")][DeadLetterRoutingKeyKey := StrArg(DeadLetterName(queue))]
  }

  /** The delegate returned no usable queue name for the dead-letter declaration. */
  predicate Anomalous(name: Option<string>) {
    name.None? || name.value == ""
  }

  /**
   * `queueDeclare`. `dlEcho` is the queue name the delegate echoes for the
   * dead-letter declaration, `origEcho` the one for the original queue; the
   * result is the echo of the last declaration issued.
   */
  function QueueDeclare(c: Config, s: ChannelState, queue: string, durable: bool, exclusive: bool,
                        autoDelete: bool, args: Option<Arguments>, dlEcho: Option<string>,
                        origEcho: Option<string>): (r: Result<Step<Option<string>>, DeclareError>)
    // the header cast fails: nothing is declared
    ensures EffectiveDelay(c, args).Failure? <==> r.Failure?
    ensures r.Failure? ==> r.error == EffectiveDelay(c, args).error
    // feature off for this queue: the caller's declaration goes through untouched
    ensures r.Success? && EffectiveDelay(c, args).value < 0 ==>
      r.value == Step(s, [Declare(queue, durable, exclusive, autoDelete, args)], origEcho)
    // feature on: the companion queue is declared first, with exactly the dead-letter arguments
    ensures r.Success? && EffectiveDelay(c, args).value >= 0 ==>
      && 1 <= |r.value.calls| <= 2
      && r.value.calls[0] == Declare(DeadLetterName(queue), durable, exclusive, autoDelete,
                                     Some(DeadLetterArgs(queue, EffectiveDelay(c, args).value)))
    // an anomalous echo stops there and is handed back
    ensures r.Success? && EffectiveDelay(c, args).value >= 0 && Anomalous(dlEcho) ==>
      r.value.state == s && |r.value.calls| == 1 && r.value.result == dlEcho
    // otherwise the original queue follows, rewired to the companion queue
    ensures r.Success? && EffectiveDelay(c, args).value >= 0 && !Anomalous(dlEcho) ==>
      && |r.value.calls| == 2
      && r.value.calls[1] == Declare(queue, durable, exclusive, autoDelete, Some(OriginalArgs(args, queue)))
      && r.value.result == origEcho
      && r.value.state.tags == s.tags
      && r.value.state.marked == (if c.invert then s.marked + {queue} else s.marked)
  {
    var delay :- EffectiveDelay(c, args);
    if delay < 0 then
      Success(Step(s, [Declare(queue, durable, exclusive, autoDelete, args)], origEcho))
    else
      var dlCall := Declare(DeadLetterName(queue), durable, exclusive, autoDelete, Some(DeadLetterArgs(queue, delay)));
      if Anomalous(dlEcho) then
        Success(Step(s, [dlCall], dlEcho))
      else
        var s' := if c.invert then s.(marked := s.marked + {queue}) else s;
        Success(Step(s', [dlCall, Declare(queue, durable, exclusive, autoDelete, Some(OriginalArgs(args, queue)))], origEcho))
  }

  // ---------------------------------------------------------------------
  // Delivery observation

  /** `deadLetterCheck`: records the tag when the queue is marked. */
  function DeadLetterCheck(s: ChannelState, queue: string, tag: int): (s': ChannelState)
    ensures s'.marked == s.marked
    ensures queue in s.marked ==> s'.tags == s.tags + {tag}
    ensures queue !in s.marked ==> s'.tags == s.tags
  {
    if queue in s.marked then s.(tags := s.tags + {tag}) else s
  }

  /**
   * `basicConsume`: an auto-ack consumer is registered as given, any other one
   * behind a recording wrapper. The step's result is the consumer as
   * registered, not the consumer tag the delegate hands back to the caller.
   */
  function BasicConsume(s: ChannelState, queue: string, autoAck: bool, consumerTag: string, noLocal: bool,
                        exclusive: bool, args: Option<Arguments>): (r: Step<Consumer>)
    ensures r.state == s
    ensures r.calls == [Consume(queue, autoAck, consumerTag, noLocal, exclusive, args, !autoAck)]
    ensures r.result == Consumer(queue, !autoAck)
  {
    Step(s, [Consume(queue, autoAck, consumerTag, noLocal, exclusive, args, !autoAck)], Consumer(queue, !autoAck))
  }

  /** `handleDelivery` reaching a registered consumer: the tag is recorded if wrapped, and the delivery is always passed on. */
  function HandleDelivery(s: ChannelState, consumer: Consumer, tag: int): (r: Step<int>)
    ensures r.calls == [] && r.result == tag
    ensures r.state.marked == s.marked
    ensures r.state.tags == if consumer.wrapped && consumer.queue in s.marked then s.tags + {tag} else s.tags
  {
    Step(if consumer.wrapped then DeadLetterCheck(s, consumer.queue, tag) else s, [], tag)
  }

  /** `basicGet`: `response` is the delegate's answer (the delivery tag, or null when the queue is empty). */
  function BasicGet(s: ChannelState, queue: string, autoAck: bool, response: Option<int>): (r: Step<Option<int>>)
    ensures r.calls == [Get(queue, autoAck)] && r.result == response
    ensures r.state.marked == s.marked
    ensures r.state.tags == if !autoAck && response.Some? && queue in s.marked then s.tags + {response.value} else s.tags
  {
    var s' := if !autoAck && response.Some? then DeadLetterCheck(s, queue, response.value) else s;
    Step(s', [Get(queue, autoAck)], response)
  }

  // ---------------------------------------------------------------------
  // Negative acknowledgement

  /**
   * `deadLettered` with the evidently intended range: whether `tag` was
   * recorded, and the recorded tags left afterwards — all tags up to and
   * including `tag` go when `multiple`, only `tag` otherwise.
   */
  function DeadLettered(tags: set<int>, tag: int, multiple: bool): (r: (bool, set<int>))
    ensures r.0 <==> tag in tags
    ensures r.1 <= tags && tag !in r.1
    ensures multiple ==> forall t | t in tags :: t in r.1 <==> t > tag
    ensures !multiple ==> r.1 == tags - {tag}
  {
    (tag in tags, if multiple then set t | t in tags && t > tag else tags - {tag})
  }

  /**
   * `deadLettered` as written: `headSet(deliveryTag + 1).clear()` with Java's
   * wrapping long addition.
   */
  function DeadLetteredAsWritten(tags: set<int>, tag: int, multiple: bool): (r: (bool, set<int>))
    ensures r.0 <==> tag in tags
    ensures r.1 <= tags
    ensures multiple ==> forall t | t in tags :: t in r.1 <==> !(t < WrapLong(tag + 1))
    ensures !multiple ==> r.1 == tags - {tag}
  {
    (tag in tags, if multiple then set t | t in tags && !(t < WrapLong(tag + 1)) else tags - {tag})
  }

  /** For every long tag but the largest the written range is the intended one. */
  lemma AsWrittenAgreesBelowMax(tags: set<int>, tag: int, multiple: bool)
    requires LongMin <= tag < LongMax
    ensures DeadLetteredAsWritten(tags, tag, multiple) == DeadLettered(tags, tag, multiple)
  {
    WrapLongOfLong(tag + 1);
    var written := DeadLetteredAsWritten(tags, tag, multiple);
    var intended := DeadLettered(tags, tag, multiple);
    assert written.1 == intended.1;
  }

  /** At Long.MAX_VALUE the addition wraps to Long.MIN_VALUE and a ranged nack clears nothing, not even the tag itself. */
  lemma AsWrittenKeepsMaxTag()
    ensures DeadLetteredAsWritten({LongMax}, LongMax, true) == (true, {LongMax})
    ensures DeadLettered({LongMax}, LongMax, true) == (true, {})
  {
    assert WrapLong(LongMax + 1) == LongMin;
    var written := DeadLetteredAsWritten({LongMax}, LongMax, true);
    assert LongMax in written.1;
    assert written.1 == {LongMax};
    var intended := DeadLettered({LongMax}, LongMax, true);
    assert intended.1 == {};
  }

  /** The one delegate call a nack turns into: the 2x2 table on (recorded?, requeue?). */
  function NackCall(wasRecorded: bool, tag: int, multiple: bool, requeue: bool): Call {
    if !wasRecorded then Nack(tag, multiple, requeue)
    else if requeue then Nack(tag, multiple, false)
    else Ack(tag, multiple)
  }

  function RejectCall(wasRecorded: bool, tag: int, requeue: bool): Call {
    if !wasRecorded then Reject(tag, requeue)
    else if requeue then Reject(tag, false)
    else Ack(tag, false)
  }

  /**
   * `basicNack`: a recorded delivery asked to be requeued is nacked without
   * requeue (so it takes the dead-letter detour to the tail), a recorded one
   * not to be requeued is acked (dropped); anything else goes through unchanged.
   */
  function BasicNack(s: ChannelState, tag: int, multiple: bool, requeue: bool): (r: Step<()>)
    ensures r.state.marked == s.marked
    ensures r.state.tags == DeadLettered(s.tags, tag, multiple).1
    ensures |r.calls| == 1
    ensures tag !in s.tags ==> r.calls[0] == Nack(tag, multiple, requeue)
    ensures tag in s.tags && requeue ==> r.calls[0] == Nack(tag, multiple, false)
    ensures tag in s.tags && !requeue ==> r.calls[0] == Ack(tag, multiple)
  {
    var (recorded, rest) := DeadLettered(s.tags, tag, multiple);
    Step(s.(tags := rest), [NackCall(recorded, tag, multiple, requeue)], ())
  }

  /** `basicReject`: the single-tag version of `basicNack`. */
  function BasicReject(s: ChannelState, tag: int, requeue: bool): (r: Step<()>)
    ensures r.state.marked == s.marked
    ensures r.state.tags == s.tags - {tag}
    ensures |r.calls| == 1
    ensures tag !in s.tags ==> r.calls[0] == Reject(tag, requeue)
    ensures tag in s.tags && requeue ==> r.calls[0] == Reject(tag, false)
    ensures tag in s.tags && !requeue ==> r.calls[0] == Ack(tag, false)
  {
    var (recorded, rest) := DeadLettered(s.tags, tag, false);
    Step(s.(tags := rest), [RejectCall(recorded, tag, requeue)], ())
  }

  /** `basicAck` is not intercepted: forwarded as is, and the recorded tags stay. */
  function BasicAck(s: ChannelState, tag: int, multiple: bool): (r: Step<()>)
    ensures r.state == s && r.calls == [Ack(tag, multiple)]
  {
    Step(s, [Ack(tag, multiple)], ())
  }

  /**
   * For the delivery named by `tag`: a nack never asks the broker to requeue it
   * at once when it is recorded, and never acks it when the caller asked for a
   * requeue.
   */
  lemma NackNeverDiscardsARequeue(s: ChannelState, tag: int, multiple: bool, requeue: bool)
    ensures var call := BasicNack(s, tag, multiple, requeue).calls[0];
      && (tag in s.tags ==> !(call.Nack? && call.requeue))
      && (requeue ==> call.Nack?)
      && (call.Ack? ==> !requeue)
  {
  }

  /**
   * A multiple nack is decided by the top tag alone. Below it, a recorded
   * delivery is forgotten but still requeued at the head when the top tag is
   * unrecorded. When the top tag is recorded, an unrecorded lower delivery the
   * caller asked to requeue is nacked without requeue.
   */
  lemma RangedNackFollowsTopTag(s: ChannelState, lower: int, tag: int)
    requires lower < tag
    ensures lower in s.tags && tag !in s.tags ==>
      && BasicNack(s, tag, true, true).calls == [Nack(tag, true, true)]
      && lower !in BasicNack(s, tag, true, true).state.tags
    ensures lower !in s.tags && tag in s.tags ==>
      BasicNack(s, tag, true, true).calls == [Nack(tag, true, false)]
  {
  }

  // ---------------------------------------------------------------------
  // Traces

  /** One operation the application (or the broker, for deliveries) performs on a channel. */
  datatype Op =
    | DeclareOp(queue: string, durable: bool, exclusive: bool, autoDelete: bool, args: Option<Arguments>,
                dlEcho: Option<string>, origEcho: Option<string>)
    | ConsumeOp(queue: string, autoAck: bool, consumerTag: string, args: Option<Arguments>)
    | DeliveryOp(consumer: Consumer, tag: int)
    | GetOp(queue: string, autoAck: bool, response: Option<int>)
    | AckOp(tag: int, multiple: bool)
    | NackOp(tag: int, multiple: bool, requeue: bool)
    | RejectOp(tag: int, requeue: bool)

  /** The state and delegate calls of one operation; a failing declaration leaves the state alone and calls nothing. */
  function Apply(c: Config, s: ChannelState, op: Op): (ChannelState, seq<Call>) {
    match op
    case DeclareOp(q, d, e, a, args, dl, orig) =>
      var r := QueueDeclare(c, s, q, d, e, a, args, dl, orig);
      if r.Success? then (r.value.state, r.value.calls) else (s, [])
    case ConsumeOp(q, auto, ct, args) =>
      var r := BasicConsume(s, q, auto, ct, false, false, args);
      (r.state, r.calls)
    case DeliveryOp(consumer, tag) =>
      var r := HandleDelivery(s, consumer, tag);
      (r.state, r.calls)
    case GetOp(q, auto, resp) =>
      var r := BasicGet(s, q, auto, resp);
      (r.state, r.calls)
    case AckOp(tag, m) =>
      var r := BasicAck(s, tag, m);
      (r.state, r.calls)
    case NackOp(tag, m, rq) =>
      var r := BasicNack(s, tag, m, rq);
      (r.state, r.calls)
    case RejectOp(tag, rq) =>
      var r := BasicReject(s, tag, rq);
      (r.state, r.calls)
  }

  /** The state after a sequence of operations, and every delegate call made on the way. */
  function Run(c: Config, s: ChannelState, ops: seq<Op>): (ChannelState, seq<Call>)
    decreases |ops|
  {
    if |ops| == 0 then (s, [])
    else
      var (s1, calls1) := Apply(c, s, ops[0]);
      var (s2, calls2) := Run(c, s1, ops[1..]);
      (s2, calls1 + calls2)
  }

  /** The operation delivers `tag` to a recording consumer or through a non-auto-ack get. */
  predicate Observes(op: Op, tag: int) {
    || (op.DeliveryOp? && op.consumer.wrapped && op.tag == tag)
    || (op.GetOp? && !op.autoAck && op.response == Some(tag))
  }

  /** Marks are never removed. */
  lemma {:induction false} MarksOnlyGrow(c: Config, s: ChannelState, ops: seq<Op>)
    ensures s.marked <= Run(c, s, ops).0.marked
    decreases |ops|
  {
    if |ops| > 0 {
      MarksOnlyGrow(c, Apply(c, s, ops[0]).0, ops[1..]);
    }
  }

  /** A delegate call as a settlement: itself when it is a nack or a reject, nothing otherwise. */
  function SettlementOf(call: Call): seq<Call> {
    if call.Nack? || call.Reject? then [call] else []
  }

  /** The nacks and rejects among delegate calls, in order. */
  function Settlements(calls: seq<Call>): seq<Call>
    decreases |calls|
  {
    if |calls| == 0 then [] else SettlementOf(calls[0]) + Settlements(calls[1..])
  }

  /** The nack or reject an operation asks for, as a plain channel would pass it on. */
  function RequestedBy(op: Op): seq<Call> {
    match op
    case NackOp(t, m, rq) => [Nack(t, m, rq)]
    case RejectOp(t, rq) => [Reject(t, rq)]
    case _ => []
  }

  /** The nacks and rejects the caller issued, in order. */
  function Requested(ops: seq<Op>): seq<Call>
    decreases |ops|
  {
    if |ops| == 0 then [] else RequestedBy(ops[0]) + Requested(ops[1..])
  }

  lemma {:induction false} SettlementsConcat(a: seq<Call>, b: seq<Call>)
    ensures Settlements(a + b) == Settlements(a) + Settlements(b)
    decreases |a|
  {
    if |a| == 0 {
      assert a + b == b;
    } else {
      var head := SettlementOf(a[0]);
      assert (a + b)[0] == a[0];
      assert (a + b)[1..] == a[1..] + b;
      SettlementsConcat(a[1..], b);
      calc {
        Settlements(a + b);
        head + Settlements(a[1..] + b);
        head + (Settlements(a[1..]) + Settlements(b));
        (head + Settlements(a[1..])) + Settlements(b);
      }
    }
  }

  /**
   * With the polarity flag off a fresh channel never marks a queue nor records
   * a tag, and the nacks and rejects reaching the broker are exactly the
   * caller's, in order and with the caller's requeue flags.
   */
  lemma {:induction false} NoInvertNoRecording(c: Config, s: ChannelState, ops: seq<Op>)
    requires !c.invert && s.marked == {} && s.tags == {}
    ensures Run(c, s, ops).0 == s
    ensures Settlements(Run(c, s, ops).1) == Requested(ops)
    decreases |ops|
  {
    if |ops| > 0 {
      var (s1, calls1) := Apply(c, s, ops[0]);
      assert s1 == s && Settlements(calls1) == RequestedBy(ops[0]) by {
        match ops[0]
        case DeclareOp(q, d, e, au, args, dl, orig) =>
          var r := QueueDeclare(c, s, q, d, e, au, args, dl, orig);
          if r.Success? {
            if EffectiveDelay(c, args).value >= 0 && !Anomalous(dl) {
              assert Settlements(r.value.calls[1..]) == [];
            }
          }
        case ConsumeOp(_, _, _, _) =>
        case DeliveryOp(_, _) =>
        case GetOp(_, _, _) =>
        case AckOp(_, _) =>
        case NackOp(t, m, rq) =>
        case RejectOp(t, rq) =>
      }
      NoInvertNoRecording(c, s1, ops[1..]);
      SettlementsConcat(calls1, Run(c, s1, ops[1..]).1);
    }
  }

  /** A recorded tag was either there at the start or observed by one of the operations. */
  lemma {:induction false} TagsComeFromObservations(c: Config, s: ChannelState, ops: seq<Op>, t: int)
    requires t in Run(c, s, ops).0.tags
    ensures t in s.tags || exists i | 0 <= i < |ops| :: Observes(ops[i], t)
    decreases |ops|
  {
    if |ops| > 0 {
      var s1 := Apply(c, s, ops[0]).0;
      TagsComeFromObservations(c, s1, ops[1..], t);
      if t !in s1.tags {
        var i :| 0 <= i < |ops[1..]| && Observes(ops[1..][i], t);
        assert Observes(ops[i + 1], t);
      } else if t !in s.tags {
        assert Observes(ops[0], t);
      }
    }
  }
}

=== FILE: requeue_scenarios.dfy ===
/**
 * A toy broker that settles one delivery according to the calls the
 * requeue-at-end channel made, used to restate the outcome table of the
 * integration test (delay, polarity, requeue) as lemmas.
 */
module RequeueScenarios {
  import opened Wrappers
  import opened RequeueAtEnd

  /** What becomes of one unacknowledged delivery once the channel has settled it. */
  datatype Fate =
    | Acknowledged              // gone, accepted by the consumer
    | Discarded                 // rejected without requeue and with nowhere to be dead-lettered back from
    | RequeuedAtHead            // put back at the head and redelivered at once
    | BackAtTailAfter(ttl: int) // parked in the companion queue, then appended to the original after ttl ms

  /** The arguments each queue was last declared with, read off the delegate calls. */
  function Declared(calls: seq<Call>): map<string, Arguments> {
    if |calls| == 0 then map[]
    else
      var m := Declared(calls[..|calls| - 1]);
      var last := calls[|calls| - 1];
      if last.Declare? then m[last.queue := last.args.GetOr(map[])] else m
  }

  /** Calls other than declarations leave the declared arguments alone. */
  lemma {:induction false} DeclaredIgnoresOthers(a: seq<Call>, b: seq<Call>)
    requires forall i | 0 <= i < |b| :: !b[i].Declare?
    ensures Declared(a + b) == Declared(a)
    decreases |b|
  {
    if |b| > 0 {
      var b' := b[..|b| - 1];
      assert (a + b)[..|a + b| - 1] == a + b';
      assert (a + b)[|a + b| - 1] == b[|b| - 1];
      DeclaredIgnoresOthers(a, b');
    } else {
      assert a + b == a;
    }
  }

  /** `target` dead-letters through the default exchange with routing key `key`. */
  predicate RoutesTo(declared: map<string, Arguments>, target: string, key: string) {
    && target in declared
    && DeadLetterExchangeKey in declared[target] && declared[target][DeadLetterExchangeKey] == StrArg("")
    && DeadLetterRoutingKeyKey in declared[target] && declared[target][DeadLetterRoutingKeyKey] == StrArg(key)
  }

  /**
   * A message the broker dead-letters out of `queue`: when it lands in a queue
   * whose TTL dead-letters it back to `queue`, it returns at the tail after
   * that TTL; otherwise it is gone.
   */
  function DeadLetterFate(declared: map<string, Arguments>, queue: string): Fate {
    if queue in declared && DeadLetterRoutingKeyKey in declared[queue] && declared[queue][DeadLetterRoutingKeyKey].StrArg? then
      var companion := declared[queue][DeadLetterRoutingKeyKey].s;
      if RoutesTo(declared, queue, companion) && RoutesTo(declared, companion, queue)
         && MessageTtlKey in declared[companion] && declared[companion][MessageTtlKey].LongArg?
      then BackAtTailAfter(declared[companion][MessageTtlKey].n)
      else Discarded
    else Discarded
  }

  /** The broker's reaction to the settling call for a delivery from `queue`. */
  function Settle(declared: map<string, Arguments>, queue: string, call: Call): Fate
    requires call.Ack? || call.Nack? || call.Reject?
  {
    match call
    case Ack(_, _) => Acknowledged
    case Nack(_, _, requeue) => if requeue then RequeuedAtHead else DeadLetterFate(declared, queue)
    case Reject(_, requeue) => if requeue then RequeuedAtHead else DeadLetterFate(declared, queue)
  }

  /**
   * The integration test's flow for one message on a fresh channel: declare
   * `queue` (auto-delete, no arguments, the broker echoing every name), get a
   * message with tag 1 without auto-ack, reject it with `requeue`.
   */
  function RejectScenario(c: Config, queue: string, requeue: bool): Fate {
    var declared := QueueDeclare(c, EmptyChannel, queue, false, false, true, None,
                                 Some(DeadLetterName(queue)), Some(queue));
    var d := declared.value;
    var g := BasicGet(d.state, queue, false, Some(1));
    var j := BasicReject(g.state, 1, requeue);
    Settle(Declared(d.calls + g.calls + j.calls), queue, j.calls[0])
  }

  /**
   * The three regimes of the decorator. Delay off: ordinary reject semantics.
   * Delay on, polarity off: requeue=true is still immediate, requeue=false
   * comes back at the tail. Delay on, polarity on: requeue=true comes back at
   * the tail, requeue=false drops the message.
   */
  lemma RejectRegimes(c: Config, queue: string, requeue: bool)
    ensures c.delay < 0 ==>
      RejectScenario(c, queue, requeue) == if requeue then RequeuedAtHead else Discarded
    ensures c.delay >= 0 && !c.invert ==>
      RejectScenario(c, queue, requeue) == if requeue then RequeuedAtHead else BackAtTailAfter(c.delay)
    ensures c.delay >= 0 && c.invert ==>
      RejectScenario(c, queue, requeue) == if requeue then BackAtTailAfter(c.delay) else Acknowledged
  {
    var dl := DeadLetterName(queue);
    assert |dl| > |queue|;
    var d := QueueDeclare(c, EmptyChannel, queue, false, false, true, None, Some(dl), Some(queue)).value;
    var g := BasicGet(d.state, queue, false, Some(1));
    var j := BasicReject(g.state, 1, requeue);
    var calls := d.calls + g.calls + j.calls;
    assert calls == d.calls + (g.calls + j.calls);
    DeclaredIgnoresOthers(d.calls, g.calls + j.calls);
    assert d.calls[..|d.calls| - 1][..0] == [];
    if c.delay >= 0 {
      assert !Anomalous(Some(dl));
      var first := d.calls[..1];
      assert d.calls[..|d.calls| - 1] == first;
      assert first[..0] == [];
      assert Declared(first) == map[dl := DeadLetterArgs(queue, c.delay)];
      assert Declared(d.calls) == map[dl := DeadLetterArgs(queue, c.delay)][queue := OriginalArgs(None, queue)];
    } else {
      assert Declared(d.calls) == map[queue := map[]];
    }
  }

  /** The rows of the integration test: delay, polarity, requeue, and where the rejected message goes. */
  lemma IntegrationTestTable(q: string)
    ensures RejectScenario(Config(-1, false), q, false) == Discarded          // each message seen once
    ensures RejectScenario(Config(-1, false), q, true) == RequeuedAtHead      // seen twice, back to back
    ensures RejectScenario(Config(0, false), q, false) == BackAtTailAfter(0)  // seen twice, in publish order
    ensures RejectScenario(Config(0, false), q, true) == RequeuedAtHead
    ensures RejectScenario(Config(0, true), q, true) == BackAtTailAfter(0)
    ensures RejectScenario(Config(0, true), q, false) == Acknowledged
    ensures RejectScenario(Config(99999999, true), q, true) == BackAtTailAfter(99999999) // back too late for the test
  {
    RejectRegimes(Config(-1, false), q, false);
    RejectRegimes(Config(-1, false), q, true);
    RejectRegimes(Config(0, false), q, false);
    RejectRegimes(Config(0, false), q, true);
    RejectRegimes(Config(0, true), q, true);
    RejectRegimes(Config(0, true), q, false);
    RejectRegimes(Config(99999999, true), q, true);
  }
}

=== FILE: wrappers.dfy ===
/** Failure-compatible wrappers shared by every module of the model. */
module Wrappers {

  /** A Java reference that may be null. */
  datatype Option<+T> = None | Some(value: T) {
    function GetOr(default: T): T {
      match this
      case Some(v) => v
      case None => default
    }
  }

  /** A Java call that either returns a value or throws. */
  datatype Result<+R, +E> = Success(value: R) | Failure(error: E) {
    predicate IsFailure() {
      Failure?
    }

    function PropagateFailure<U>(): Result<U, E>
      requires Failure?
    {
      Failure(error)
    }

    function Extract(): R
      requires Success?
    {
      value
    }
  }
}
